=== FILE: README.md ===
# django_helmholtz_aai login reconciliation in Dafny

This project models what `HelmholtzAuthentificationView` of django_helmholtz_aai
does on every OAuth callback from the Helmholtz AAI, and proves properties of
that model. It covers four parts. First, the access gate `has_permission`
(allow-list of VO patterns, verified email, duplicate email). Second, the
create-or-update of the `HelmholtzUser` keyed by `eduperson_unique_id`. Third,
`synchronize_vos`, which brings the user's `HelmholtzVirtualOrganization`
memberships in line with the entitlements that match `group_patt`. Fourth,
the login that sends `aai_user_logged_in` last. It also covers the VO display
name and the group `__str__` of models.py.

The database is an immutable `Store` keyed by the two unique columns: AAI users
by `eduperson_unique_id`, VOs by `eduperson_entitlement`. Uniqueness of those two
columns therefore holds by construction. The remaining schema constraints are
the predicate `Models.Valid`: usernames are unique over all Django users, group
names are unique over all groups, and membership rows point at existing rows.
A callback is the pure function `AuthView.Dispatch`. It returns the store after
the callback, the ordered trace of signals sent, and the outcome: logged in,
denied with the single reason `has_permission` reports, or stopped by a
database error. Signals are the `Signals.Event` values; their payloads are not
modelled.

Modelling choices:

- Python does not fix the iteration order of the two set differences in
  `synchronize_vos`. The order is an input (`VoSync.Order`), constrained to
  enumerate each set exactly once, and every property holds for every order.
- `create_aai_user` is a manager method defined outside views.py and
  models.py. Creation is modelled as inserting the user with
  `preferred_username` as its username and no collision handling. A taken
  username is a unique-constraint error that stops the callback
  (`StoreError.UsernameInUse`).
- Creating a VO whose entitlement is already the name of some group is
  refused by the unique group name column (`StoreError.GroupNameInUse`).
- A database error keeps the writes and signals that happened before it. The
  view declares no transaction.
- Allow-list patterns are abstract languages with the prefix-anchored
  semantics of `re.match` (`GroupPattern.PrefixMatch`). `group_patt`
  (`.*:group:.*#.*`) is defined concretely and decided by a scanning method.
- The view reads the setting `HELMHOLTZ_ALLOWED_VOS`, which app_settings.py
  declares as a list of strings: it skips the allow-list check when that
  setting is empty and otherwise calls `.match` on each entry. The
  compiled patterns live in `HELMHOLTZ_ALLOWED_VOS_REGEXP`. The gate
  (`Permission.HasPermission`) reads the compiled list, both for the
  emptiness test and for the matching, as the tests do by putting compiled
  patterns into the setting. The check as written, guard included, is
  modelled separately (`Permission.AllowGateAsWritten`); "## Findings"
  names the two inputs on which the two readings differ.
- `create_user` and `update_user` never fall back to another username and
  never substitute the email for an empty `preferred_username`; the model
  does not either.
- Each callback runs on a fresh view, as Django's `as_view` creates one per
  request. In the tests one view instance serves several callbacks, so its
  cached `is_new_user` (views.py:92-101) survives between them, so a reused
  instance treats a returning user as new. If the claimed email is the
  stored one, the duplicate-email check refuses the callback. If the email
  changed, the gate passes and `create_user` then fails on the unique
  columns that the first callback already filled. The allow-list check runs
  before both and can refuse first. The scenario lemmas state what a fresh
  view does.

The scenario lemmas in `scenarios.dfy` restate the tests of
tests/test_authentification_view.py for every iteration order.

## Model

| member | source | states |
|---|---|---|
| GroupPattern.MatchGroupPattern | django_helmholtz_aai/views.py:36 | a one-pass scan answers true exactly when `group_patt.match` succeeds on the string |
| GroupPattern.GroupEntitlementShape | django_helmholtz_aai/views.py:36 | `.*:group:.*#.*` matches a prefix iff the string has a `:group:`, later a `#`, and no newline before that `#` |
| GroupPattern.GroupEntitlementOfParts | django_helmholtz_aai/views.py:36 | every `a:group:b#rest` with newline-free `a`, `b` is a group entitlement |
| GroupPattern.NoHashNoGroup | django_helmholtz_aai/views.py:36 | a string without `#` (a capability flag) is never a group entitlement |
| GroupPattern.FindMarker | django_helmholtz_aai/models.py:19 | finds the first `:group:` at or after a position, or reports that none exists |
| Models.DisplayName | django_helmholtz_aai/models.py:17-19 | the display name exists iff the name contains `:group:`; it is the text after the first occurrence, the rest kept whole (maxsplit=1); otherwise IndexError |
| Models.GroupStr | django_helmholtz_aai/models.py:21-31 | a VO's `__str__` is its display name, with the same success condition; a plain group's `__str__` is its raw name |
| Models.DisplayNameTotalOnGroupEntitlements | django_helmholtz_aai/models.py:19 | a name accepted by `group_patt` always has a display name |
| Signals.SignalNames | django_helmholtz_aai/signals.py:31-47 | the signal names of a trace correspond one to one, in order, with its events |
| Permission.AnyEntitlementMatches | django_helmholtz_aai/views.py:110-116 | true iff the pattern matches some claimed entitlement |
| Permission.AnyPatternMatches | django_helmholtz_aai/views.py:110-116 | true iff some (pattern, entitlement) pair of the product matches |
| Permission.HasPermission | django_helmholtz_aai/views.py:103-146 | the gate reports the allow-list failure iff the list is non-empty and no pair matches; otherwise the unverified email iff it is unverified; otherwise a duplicate email iff duplicates are off and another AAI user holds the email; it passes iff none of these hold |
| Permission.KeptEmailNeverBlocks | django_helmholtz_aai/views.py:131-139 | an existing user keeping their stored email is never refused on email grounds |
| Permission.AllowListAsWritten | django_helmholtz_aai/views.py:109-116 | the check as written over the entries of `HELMHOLTZ_ALLOWED_VOS`: no entitlement means no match and no error; an error names a plain-string entry; a match comes from a compiled entry matching some entitlement |
| Permission.StringSettingRaises | django_helmholtz_aai/app_settings.py:43-45 | with the setting holding plain strings, as declared, any login claiming an entitlement raises AttributeError on the first entry, in the `any` and in the guarded step alike |
| Permission.AllowGateAsWritten | django_helmholtz_aai/views.py:109-116 | the allow-list step as written: an empty `HELMHOLTZ_ALLOWED_VOS` lets every login through; a non-empty one refuses a login claiming no entitlement; an error needs an entitlement and names a plain-string entry; passing a non-empty setting needs a compiled entry matching some entitlement |
| Permission.RegexpOnlySettingAdmitsAll | django_helmholtz_aai/views.py:109-116 | with only `HELMHOLTZ_ALLOWED_VOS_REGEXP` set, the step as written lets every login through, while the compiled list refuses a login no pattern matches |
| Permission.CompiledGateAgrees | django_helmholtz_aai/app_settings.py:50-56 | the allow-list step run over the compiled list, guard included, never raises and passes exactly when the gate's allow-list check passes |
| Permission.CompiledSettingMatches | django_helmholtz_aai/app_settings.py:50-56 | over compiled patterns the check never raises and answers as the pair-wise match the gate uses |
| Permission.GateIgnoresBaseUsers | django_helmholtz_aai/views.py:152-156 | plain Django users never affect the gate: only AAI users are searched for the email |
| Reconcile.CreateUser | django_helmholtz_aai/views.py:158-170 | a new user is inserted under its id with the claimed username, email, first and last name, without groups, and `aai_user_created` sent; other users keep their rows and their VO and group memberships, and the VO table, plain groups and plain usernames are unchanged; a taken username is an error that writes and sends nothing |
| Reconcile.CreateUserPreservesValid | django_helmholtz_aai/models.py:9 | creating a user for an id not yet stored keeps every schema constraint |
| Reconcile.ApplyToUpdate | django_helmholtz_aai/views.py:174-194 | applying `to_update` yields the claimed names and email, adopts the preferred username iff it is already the user's or no user has it, and changes the user iff `to_update` is non-empty |
| Reconcile.UpdateUser | django_helmholtz_aai/views.py:172-202 | only the user's own row changes; names and email become the claimed ones; the username becomes the preferred one iff no user has it, else stays; an unchanged user means no write and no signal, a changed one means exactly one `aai_user_updated` |
| Reconcile.UpdateUserPreservesValid | django_helmholtz_aai/views.py:182-184 | an update never gives a username that another user holds, so the schema stays intact |
| Reconcile.UpdateUserIdempotent | django_helmholtz_aai/views.py:191-194 | a second update with the same claims writes and sends nothing |
| VoSync.RemoveVos | django_helmholtz_aai/views.py:224-236 | the removal loop succeeds iff every entitlement names a stored VO; it then drops exactly those memberships of the user with one `aai_vo_left` each; every other user keeps their VO memberships; VOs themselves are never deleted |
| VoSync.EnterVo | django_helmholtz_aai/views.py:239-261 | one addition reuses an existing VO or creates one named after its entitlement; it sends `aai_vo_created` only on creation, then `aai_vo_entered`; creation fails iff a group already has that name |
| VoSync.EnterVoFrame | django_helmholtz_aai/views.py:239-254 | one addition changes only the VO table and the user's own VO memberships; no VO is removed or renamed and other users keep their memberships |
| VoSync.AddVos | django_helmholtz_aai/views.py:238-261 | the addition loop succeeds iff every VO to be created has a free name; it then adds exactly the memberships of the loop and sends the signals of `AddEvents` in loop order |
| VoSync.AddVosFrame | django_helmholtz_aai/views.py:238-261 | the addition loop changes only the VO table and the user's own VO memberships, which only grow by VOs of the loop; other users keep theirs, and every VO it creates belongs to the loop and is named after its entitlement |
| VoSync.AddVosTable | django_helmholtz_aai/views.py:239-254 | after a successful addition loop the VO table holds exactly the VOs stored before and those of the loop |
| VoSync.Sync | django_helmholtz_aai/views.py:204-261 | after a successful sync the user's VOs are exactly the claimed group entitlements; only the user's VO memberships and the VO table change, every other user keeping their VO memberships; no VO is deleted; a user already in sync causes no write and no signal |
| VoSync.AddEventsShape | django_helmholtz_aai/views.py:239-261 | the addition loop enters exactly the VOs of the loop and creates exactly those not stored before, each creation directly before its entry |
| VoSync.AddEventsEntersOnce | django_helmholtz_aai/views.py:238-254 | when the loop visits each VO once, as iterating a set does, no two `aai_vo_entered` signals name the same VO |
| VoSync.LeftEventsShape | django_helmholtz_aai/views.py:225-236 | the removal loop sends `aai_vo_left` for exactly the VOs it removes and nothing else |
| VoSync.SyncEventsShape | django_helmholtz_aai/views.py:224-261 | the removal signals followed by the addition signals have all `aai_vo_left` first and each `aai_vo_created` directly followed by its `aai_vo_entered` |
| VoSync.SyncEventOrder | django_helmholtz_aai/views.py:224-261 | a successful sync sends `aai_vo_left` exactly for the VOs left, all before any addition signal; `aai_vo_entered` exactly for the VOs entered; `aai_vo_created` exactly for those entered that did not exist; no VO is entered twice |
| VoSync.SyncPreservesValid | django_helmholtz_aai/views.py:204-261 | a sync keeps every schema constraint, whether it succeeds or fails |
| VoSync.RemoveVosPreservesValid | django_helmholtz_aai/views.py:224-236 | the removal loop keeps every schema constraint |
| VoSync.AddVosPreservesValid | django_helmholtz_aai/views.py:238-261 | the addition loop keeps every schema constraint |
| VoSync.EnterVoPreservesValid | django_helmholtz_aai/views.py:239-254 | one addition keeps every schema constraint |
| AuthView.UpdatedUserAgrees | django_helmholtz_aai/views.py:172-194 | after an update the stored user has the claimed names and email, and the preferred username unless some user holds it |
| AuthView.CreateOrUpdate | django_helmholtz_aai/views.py:71-74 | the callback creates the user iff `is_new_user`, else updates it; it fails only for a new user whose username is taken; other users keep their rows and their VO and group memberships, the VO table and plain groups are untouched, and the user keeps their plain-group memberships; an agreeing existing user causes no write |
| AuthView.Get | django_helmholtz_aai/views.py:69-84 | a completed `get` leaves the user agreeing with the claims and in exactly the claimed VOs; it sends the user signal, the sync signals and `aai_user_logged_in` last; other users keep their rows and their VO and group memberships, plain groups are unchanged, and no VO is deleted |
| AuthView.Dispatch | django_helmholtz_aai/views.py:103-146 | a refused callback reports the gate's reason and changes nothing; otherwise the callback behaves as `get`, other users keeping their rows and memberships |
| AuthView.DispatchPreservesValid | django_helmholtz_aai/models.py:9-15 | every callback, refused, failed or successful, keeps every schema constraint |
| AuthView.PermittedCallbackSucceeds | django_helmholtz_aai/views.py:69-84 | on a consistent database a permitted callback logs in iff the new user's username is free and no VO to be created clashes with a group name; otherwise it fails with a database error |
| AuthView.AgreeingUserIsPermitted | django_helmholtz_aai/views.py:130-146 | a user whose stored data agree with the claims passes the email check |
| AuthView.AgreeingUserGetIsQuiet | django_helmholtz_aai/views.py:69-84 | `get` for a user who agrees with the claims and is in exactly the claimed VOs leaves the store unchanged and sends only `aai_user_logged_in` |
| AuthView.RepeatedLoginIsQuiet | django_helmholtz_aai/views.py:69-84 | repeating a successful login with the same claims leaves the store unchanged and sends only `aai_user_logged_in` |
| AuthView.CreatedVosHaveDisplayNames | django_helmholtz_aai/models.py:17-22 | every VO a callback creates is named after a group entitlement, so its display name and `__str__` never raise |
| Scenarios.FixtureDesired | django_helmholtz_aai/tests/test_authentification_view.py:33-37 | of the fixture's three entitlements, the two `:group:` ones are VOs and the capability flag is not |
| Scenarios.FirstLoginOnEmptyStore | django_helmholtz_aai/views.py:69-84 | on an empty database a verified first login succeeds and sends `aai_user_created`, the VO creations and entries, then `aai_user_logged_in` |
| Scenarios.FirstLoginSignals | django_helmholtz_aai/tests/test_authentification_view.py:119-149 | the fixture's first login sends exactly user created, (VO created, VO entered) twice, user logged in |
| Scenarios.LoggedInOnEmptyStore | django_helmholtz_aai/views.py:69-84 | a successful login on an empty database leaves exactly the claimed user, with the claimed username, names and email, in exactly the claimed VOs |
| Scenarios.FirstLoginState | django_helmholtz_aai/tests/test_authentification_view.py:110-116 | after the first login the only user is the fixture's, with username `dummy_user`, in both VOs |
| Scenarios.ReturningUserLeavesVos | django_helmholtz_aai/views.py:224-236 | a returning user who agrees with the claims and only drops VOs sends one `aai_vo_left` per VO dropped, then the login signal |
| Scenarios.ChangedVoSignals | django_helmholtz_aai/tests/test_authentification_view.py:214-229 | dropping the subgroup entitlement sends exactly `aai_vo_left`, `aai_user_logged_in` and leaves the user in the other VO |
| Scenarios.RepeatedFixtureLogin | django_helmholtz_aai/views.py:69-84 | the fixture's second, identical login leaves the store unchanged and sends only `aai_user_logged_in` |
| Scenarios.ReturningUserUpdated | django_helmholtz_aai/views.py:172-202 | a permitted returning user who needs an update and whose VOs match sends exactly `aai_user_updated`, `aai_user_logged_in` |
| Scenarios.ChangedUsernameSignals | django_helmholtz_aai/tests/test_authentification_view.py:152-165 | a new free preferred username replaces the stored one, and the signals are `aai_user_updated`, `aai_user_logged_in` |
| Scenarios.ChangedEmailSignals | django_helmholtz_aai/tests/test_authentification_view.py:168-189 | the fixture user stays the only user and holds the new email, no user keeps the old one, and the signals are `aai_user_updated`, `aai_user_logged_in` |
| Scenarios.EmailDuplicateDenied | django_helmholtz_aai/tests/test_authentification_view.py:192-211 | a second identity with the fixture's email is refused with the duplicate-email reason and the database is unchanged |
| Scenarios.AllowedVosScenario | django_helmholtz_aai/tests/test_authentification_view.py:232-252 | with only `.*not_available.*` allowed the login is refused and nothing changes; adding `.*:group:some_VO#.*` lets it through |

## Left out

- The OAuth handshake (client registration, token and userinfo fetch, `HelmholtzLoginView`): a foreign library call; the userinfo claims are an input record (`Userinfo.Claims`).
- Sessions, the redirect after login and the `messages` framework: request plumbing with no bearing on the store or the signals.
- `auth_login` inside `login` of __init__.py: only the `aai_user_logged_in` it sends afterwards is modelled.
- `handle_no_permission`'s choice between a 403 and a redirect to the login page: both are the outcome `Denied`.
- Signal payloads (sender, request, user, vo, userinfo) and receivers: only the order of emissions is modelled.
- `create_aai_user` and `remove_empty_vos`: manager methods and a management command defined outside views.py and models.py; creation follows the assumption stated above.
- Settings loading in app_settings.py: the two settings the login reads are the parameter `Settings.Config`.
- Templatetags, admin and URL configuration: thin wrappers outside the login.
- Concurrent callbacks: the code does not handle races.
- General regular expressions: allow-list patterns stay abstract languages.
- A missing claim raises `KeyError` in the source; the model takes every claim as present.
- Column length limits: strings are unbounded. The model does not show the errors of the 500-character AAI columns, nor of Django's 150-character username and group name columns, which `create_user` and the VO creation write; an entitlement of 151 to 500 characters fails there in the source.
- Userinfo fields other than the seven claims the login reads.

## Findings

| source | as written | input that shows it | evidently intended | confidence | as-written member | corrected member |
|---|---|---|---|---|---|---|
| django_helmholtz_aai/views.py:109-116 | the allow-list check calls `.match` on each entry of `HELMHOLTZ_ALLOWED_VOS`, which app_settings.py:43-45 declares as a list of plain strings | `HELMHOLTZ_ALLOWED_VOS = [".*"]` and a login claiming one entitlement: `str` has no attribute `match` | iterate `HELMHOLTZ_ALLOWED_VOS_REGEXP`, which app_settings.py:50-56 fills with the compiled entries | high, not executed | Permission.StringSettingRaises | Permission.CompiledGateAgrees |
| django_helmholtz_aai/views.py:109 | the allow-list check is skipped when `HELMHOLTZ_ALLOWED_VOS` is empty, whatever `HELMHOLTZ_ALLOWED_VOS_REGEXP` holds | only `HELMHOLTZ_ALLOWED_VOS_REGEXP = [re.compile(".*:group:x#.*")]` set, and a login claiming no matching entitlement: the login passes the allow-list check | test and iterate `HELMHOLTZ_ALLOWED_VOS_REGEXP`, so that the compiled patterns it holds restrict the login | high, not executed | Permission.RegexpOnlySettingAdmitsAll | Permission.CompiledGateAgrees |

=== FILE: auth_view.dfy ===
/**
  The callback of `HelmholtzAuthentificationView` (`get` in
  django_helmholtz_aai/views.py, with `login` of django_helmholtz_aai/__init__.py):
  permission check, create-or-update of the user, VO sync, login signal.
*/
module AuthView {
  import opened Wrappers
  import opened GroupPattern
  import opened Models
  import opened Userinfo
  import opened Settings
  import opened Signals
  import opened Permission
  import opened Reconcile
  import opened VoSync

  /** How a callback ends: logged in, refused (403 or a redirect to the login page), or stopped by a database error. */
  datatype Outcome =
    | LoggedIn(uid: string)
    | Denied(reason: DenyReason)
    | Failed(error: StoreError)

  /** The store after the callback, every signal it sent, and how it ended. */
  datatype LoginResult = LoginResult(store: Store, events: seq<Event>, outcome: Outcome)

  /** The VOs the user belongs to when the sync starts: none for a user about to be created. */
  function StartingVos(s: Store, c: Claims): set<string> {
    if IsNewUser(s, c) then {} else VosOf(s, c.uniqueId)
  }

  /** `ord` is an order the runtime may choose for the sync this callback runs. */
  predicate LoginOrderFits(s: Store, c: Claims, ord: Order) {
    && Enumerates(ord.removals, StartingVos(s, c) - Desired(c))
    && Enumerates(ord.additions, Desired(c) - StartingVos(s, c))
  }

  /** An existing user's stored names, email or (free) username differ from the claims. */
  predicate NeedsUpdate(s: Store, c: Claims)
    requires c.uniqueId in s.users
  {
    var u := s.users[c.uniqueId];
    || u.firstName != c.givenName
    || u.lastName != c.familyName
    || u.email != c.email
    || (u.username != c.preferredUsername && !UsernameTaken(s, c.preferredUsername))
  }

  /**
    The stored user agrees with the claims as far as `update_user` can make
    it: names and email are the claimed ones, and the username is the
    preferred one unless some user holds that name.
  */
  predicate UserAgrees(s: Store, c: Claims) {
    && c.uniqueId in s.users
    && s.users[c.uniqueId].firstName == c.givenName
    && s.users[c.uniqueId].lastName == c.familyName
    && s.users[c.uniqueId].email == c.email
    && (s.users[c.uniqueId].username == c.preferredUsername || UsernameTaken(s, c.preferredUsername))
  }

  /** An updated user agrees with the claims it was updated from. */
  lemma UpdatedUserAgrees(s: Store, c: Claims)
    requires c.uniqueId in s.users
    ensures UserAgrees(UpdateUser(s, c).0, c)
  {
    var s' := UpdateUser(s, c).0;
    var pu := c.preferredUsername;
    if s'.users[c.uniqueId].username != pu && pu !in s.baseUsernames {
      var holder :| holder in s.users && s.users[holder].username == pu;
      assert holder != c.uniqueId;
      assert s'.users[holder].username == pu;
    }
  }

  /** The user signals of create-or-update. */
  function UserSignals(s: Store, c: Claims): seq<Event> {
    if IsNewUser(s, c) then [UserCreated(c.uniqueId)]
    else if NeedsUpdate(s, c) then [UserUpdated(c.uniqueId)]
    else []
  }

  /**
    The signals of a successful callback: the user signal, every
    `aai_vo_left`, the creations and entries, and `aai_user_logged_in` last.
  */
  function SuccessTrace(s: Store, c: Claims, ord: Order): seq<Event> {
    UserSignals(s, c) + (LeftEvents(ord.removals) + AddEvents(s.vos.Keys, ord.additions))
    + [UserLoggedIn(c.uniqueId)]
  }

  /**
    Lines 71-74 of `get`: create the user when `is_new_user`, update it
    otherwise. Only creation can fail, on a username already in use.
  */
  function CreateOrUpdate(s: Store, c: Claims): (r: Effect)
    ensures r.fault.Some? <==> IsNewUser(s, c) && UsernameTaken(s, c.preferredUsername)
    ensures r.fault.Some? ==> r.store == s && r.events == []
    ensures r.fault.None? ==> c.uniqueId in r.store.users && r.events == UserSignals(s, c)
    ensures r.fault.None? ==> VosOf(r.store, c.uniqueId) == StartingVos(s, c)
    ensures r.fault.None? ==>
      GroupsOf(r.store, c.uniqueId) == if IsNewUser(s, c) then {} else GroupsOf(s, c.uniqueId)
    ensures r.fault.None? ==> UserAgrees(r.store, c)
    ensures !IsNewUser(s, c) && !NeedsUpdate(s, c) ==> r == Effect(s, [], None)
    ensures r.store.vos == s.vos && r.store.plainGroups == s.plainGroups
    ensures r.store.baseUsernames == s.baseUsernames
    ensures forall uid :: uid in s.users && uid != c.uniqueId ==>
              uid in r.store.users && r.store.users[uid] == s.users[uid]
    ensures forall u :: u != c.uniqueId ==> VosOf(r.store, u) == VosOf(s, u) && GroupsOf(r.store, u) == GroupsOf(s, u)
  {
    if IsNewUser(s, c) then
      CreateUser(s, c)
    else
      var u := s.users[c.uniqueId];
      ApplyToUpdate(s, u, c);
      UpdatedUserAgrees(s, c);
      var (s', evs) := UpdateUser(s, c);
      Effect(s', evs, None)
  }

  /** The sync of `uid` keeps the memberships of every other user that create-or-update kept. */
  lemma MembershipsKeptThroughSync(s: Store, s1: Store, s2: Store, uid: string)
    requires forall u :: u != uid ==> VosOf(s1, u) == VosOf(s, u) && GroupsOf(s1, u) == GroupsOf(s, u)
    requires SyncFrame(s1, s2, uid)
    ensures forall u :: u != uid ==> VosOf(s2, u) == VosOf(s, u) && GroupsOf(s2, u) == GroupsOf(s, u)
  {
  }

  /**
    `get`, run once the permission check passed: create or update the user,
    sync the VOs, then `aai_user_logged_in` last. A database error stops the
    callback; what was written and sent before it stays.
  */
  function Get(s: Store, c: Claims, ord: Order): (r: LoginResult)
    requires LoginOrderFits(s, c, ord)
    ensures !r.outcome.Denied?
    ensures r.outcome.LoggedIn? ==> r.outcome.uid == c.uniqueId && c.uniqueId in r.store.users
    ensures r.store.users.Keys <= s.users.Keys + {c.uniqueId}
    ensures forall uid :: uid in s.users && uid != c.uniqueId ==>
              uid in r.store.users && r.store.users[uid] == s.users[uid]
    ensures r.store.baseUsernames == s.baseUsernames && r.store.plainGroups == s.plainGroups
    ensures forall u :: u != c.uniqueId ==> VosOf(r.store, u) == VosOf(s, u) && GroupsOf(r.store, u) == GroupsOf(s, u)
    ensures r.outcome.LoggedIn? ==> VosOf(r.store, c.uniqueId) == Desired(c)
    ensures r.outcome.LoggedIn? ==> UserAgrees(r.store, c)
    ensures r.outcome.LoggedIn? ==>
      GroupsOf(r.store, c.uniqueId) == if IsNewUser(s, c) then {} else GroupsOf(s, c.uniqueId)
    ensures r.outcome.LoggedIn? ==> r.events == SuccessTrace(s, c, ord)
    ensures forall e :: e in s.vos ==> e in r.store.vos && r.store.vos[e] == s.vos[e]
    ensures forall e :: e in r.store.vos && e !in s.vos ==> e in Desired(c) && r.store.vos[e] == e
  {
    var user := CreateOrUpdate(s, c);
    if user.fault.Some? then
      LoginResult(user.store, user.events, Failed(user.fault.value))
    else
      assert OrderFits(user.store, c.uniqueId, c, ord);
      var sync := Sync(user.store, c.uniqueId, c, ord);
      MembershipsKeptThroughSync(s, user.store, sync.store, c.uniqueId);
      if sync.fault.Some? then
        LoginResult(sync.store, user.events + sync.events, Failed(sync.fault.value))
      else
        assert user.store.vos.Keys == s.vos.Keys;
        assert user.events + sync.events + [UserLoggedIn(c.uniqueId)] == SuccessTrace(s, c, ord);
        LoginResult(sync.store, user.events + sync.events + [UserLoggedIn(c.uniqueId)],
                    LoggedIn(c.uniqueId))
  }

  /**
    `dispatch` of the permission mixin around `get`: a refusal writes and
    sends nothing and reports the first failing check; otherwise the
    callback runs `get`.
  */
  function Dispatch(cfg: Config, s: Store, c: Claims, ord: Order): (r: LoginResult)
    requires LoginOrderFits(s, c, ord)
    ensures r.outcome.Denied? <==> HasPermission(cfg, s, c).Some?
    ensures r.outcome.Denied? ==>
      r.outcome.reason == HasPermission(cfg, s, c).value && r.store == s && r.events == []
    ensures r.outcome.LoggedIn? ==> r.outcome.uid == c.uniqueId && c.uniqueId in r.store.users
    ensures r.store.users.Keys <= s.users.Keys + {c.uniqueId}
    ensures forall uid :: uid in s.users && uid != c.uniqueId ==>
              uid in r.store.users && r.store.users[uid] == s.users[uid]
    ensures r.store.baseUsernames == s.baseUsernames && r.store.plainGroups == s.plainGroups
    ensures forall u :: u != c.uniqueId ==> VosOf(r.store, u) == VosOf(s, u) && GroupsOf(r.store, u) == GroupsOf(s, u)
    ensures r.outcome.LoggedIn? ==> VosOf(r.store, c.uniqueId) == Desired(c)
    ensures r.outcome.LoggedIn? ==> UserAgrees(r.store, c)
    ensures r.outcome.LoggedIn? ==>
      GroupsOf(r.store, c.uniqueId) == if IsNewUser(s, c) then {} else GroupsOf(s, c.uniqueId)
    ensures r.outcome.LoggedIn? ==> r.events == SuccessTrace(s, c, ord)
    ensures forall e :: e in s.vos ==> e in r.store.vos && r.store.vos[e] == s.vos[e]
    ensures forall e :: e in r.store.vos && e !in s.vos ==> e in Desired(c) && r.store.vos[e] == e
  {
    match HasPermission(cfg, s, c)
    case Some(reason) => LoginResult(s, [], Denied(reason))
    case None => Get(s, c, ord)
  }

  /** Every callback, refused, failed or successful, leaves the schema's constraints intact. */
  lemma DispatchPreservesValid(cfg: Config, s: Store, c: Claims, ord: Order)
    requires Valid(s) && LoginOrderFits(s, c, ord)
    ensures Valid(Dispatch(cfg, s, c, ord).store)
  {
    if HasPermission(cfg, s, c).None? {
      var user := CreateOrUpdate(s, c);
      if IsNewUser(s, c) {
        CreateUserPreservesValid(s, c);
      } else {
        UpdateUserPreservesValid(s, c);
      }
      if user.fault.None? {
        SyncPreservesValid(user.store, c.uniqueId, c, ord);
      }
    }
  }

  /**
    On a consistent store a permitted callback fails only where the database
    refuses a name: the preferred username of a new user is taken, or a VO
    to be created has the name of an existing group.
  */
  lemma PermittedCallbackSucceeds(cfg: Config, s: Store, c: Claims, ord: Order)
    requires Valid(s) && LoginOrderFits(s, c, ord)
    requires HasPermission(cfg, s, c).None?
    ensures Dispatch(cfg, s, c, ord).outcome.LoggedIn? <==>
      && !(IsNewUser(s, c) && UsernameTaken(s, c.preferredUsername))
      && NamesFree(s, Desired(c) - StartingVos(s, c))
    ensures !Dispatch(cfg, s, c, ord).outcome.LoggedIn? ==> Dispatch(cfg, s, c, ord).outcome.Failed?
  {
    var user := CreateOrUpdate(s, c);
    if user.fault.None? {
      var uid := c.uniqueId;
      assert Leaving(user.store, uid, c) <= user.store.vos.Keys;
      assert NamesFree(user.store, Entering(user.store, uid, c)) <==> NamesFree(s, Desired(c) - StartingVos(s, c));
    }
  }

  /** A user that agrees with the claims passes the email check on them. */
  lemma AgreeingUserIsPermitted(cfg: Config, s: Store, c: Claims)
    requires UserAgrees(s, c) && AllowListPasses(cfg, c) && c.emailVerified
    ensures HasPermission(cfg, s, c).None?
  {
    assert !EmailBlocked(cfg, s, c);
  }

  /**
    For a user that agrees with the claims and already is in exactly the
    VOs they name, `get` leaves the store unchanged and sends only the login signal.
  */
  lemma AgreeingUserGetIsQuiet(s: Store, c: Claims)
    requires UserAgrees(s, c) && VosOf(s, c.uniqueId) == Desired(c)
    ensures LoginOrderFits(s, c, Order([], []))
    ensures Get(s, c, Order([], [])) == LoginResult(s, [UserLoggedIn(c.uniqueId)], LoggedIn(c.uniqueId))
  {
    var none := Order([], []);
    assert Elements([]) == {};
    assert LoginOrderFits(s, c, none);
    assert CreateOrUpdate(s, c) == Effect(s, [], None);
    assert Sync(s, c.uniqueId, c, none) == Effect(s, [], None);
  }

  /**
    Logging in again with the same claims right after a successful login
    leaves the store unchanged and sends only `aai_user_logged_in`.
  */
  lemma RepeatedLoginIsQuiet(cfg: Config, s: Store, c: Claims, ord: Order)
    requires LoginOrderFits(s, c, ord)
    requires Dispatch(cfg, s, c, ord).outcome.LoggedIn?
    ensures var s1 := Dispatch(cfg, s, c, ord).store;
      && LoginOrderFits(s1, c, Order([], []))
      && Dispatch(cfg, s1, c, Order([], [])) == LoginResult(s1, [UserLoggedIn(c.uniqueId)], LoggedIn(c.uniqueId))
  {
    var s1 := Dispatch(cfg, s, c, ord).store;
    assert HasPermission(cfg, s, c).None?;
    AgreeingUserIsPermitted(cfg, s1, c);
    AgreeingUserGetIsQuiet(s1, c);
  }

  /**
    Every VO a callback creates is named after its entitlement, which
    `group_patt` accepts, so its display name (and `__str__`) never raises.
  */
  lemma CreatedVosHaveDisplayNames(cfg: Config, s: Store, c: Claims, ord: Order)
    requires LoginOrderFits(s, c, ord)
    ensures var s1 := Dispatch(cfg, s, c, ord).store;
      forall e :: e in s1.vos && e !in s.vos ==>
        && s1.vos[e] == e
        && IsGroupEntitlement(e)
        && GroupStr(VoGroup(s1, e)).Success?
  {
    var s1 := Dispatch(cfg, s, c, ord).store;
    forall e | e in s1.vos && e !in s.vos
      ensures GroupStr(VoGroup(s1, e)).Success?
    {
      DisplayNameTotalOnGroupEntitlements(e);
    }
  }
}

=== FILE: group_pattern.dfy ===
/**
  Matching of entitlement strings against regular expressions the way
  Python's `re.match` does it, and the concrete pattern `.*:group:.*#.*`
  (`group_patt` in django_helmholtz_aai/views.py) that tells group
  entitlements from other entitlements such as capability flags.
*/
module GroupPattern {
  import opened Wrappers

  /** A regular expression, given by the set of strings its whole pattern accepts. */
  type Language = string -> bool

  /**
    `pattern.match(s)`: the match is anchored at the start of `s` only, so it
    succeeds exactly when some prefix of `s` lies in the language.
  */
  predicate PrefixMatch(lang: Language, s: string) {
    exists k :: 0 <= k <= |s| && lang(s[..k])
  }

  /** The delimiter that separates the namespace of a group entitlement from the group path. */
  const Marker: string := ":group:"

  predicate MarkerAt(s: string, i: int) {
    0 <= i && i + |Marker| <= |s| && s[i..i + |Marker|] == Marker
  }

  /** Some occurrence of the marker ends at or before position `n` of `s`. */
  predicate MarkerBefore(s: string, n: int) {
    exists m :: 0 <= m && m + |Marker| <= n && MarkerAt(s, m)
  }

  /**
    The language of `.*:group:.*#.*`, where `.` is any character except a
    newline: a newline-free string with a '#' somewhere after a marker.
  */
  predicate GroupLanguage(t: string) {
    && '\n' !in t
    && exists j :: 0 <= j < |t| && t[j] == '#' && MarkerBefore(t, j)
  }

  /** `group_patt.match(s)`: `s` is a group entitlement. */
  predicate IsGroupEntitlement(s: string) {
    PrefixMatch(GroupLanguage, s)
  }

  /** The shape of a group entitlement without reference to prefixes. */
  predicate GroupShape(s: string) {
    exists j :: 0 <= j < |s| && s[j] == '#' && MarkerBefore(s, j) && '\n' !in s[..j]
  }

  /** Taking a prefix that still contains a position keeps the markers before it. */
  lemma MarkerBeforePrefix(s: string, k: int, n: int)
    requires 0 <= n <= k <= |s|
    ensures MarkerBefore(s[..k], n) <==> MarkerBefore(s, n)
  {
    if MarkerBefore(s, n) {
      var m :| 0 <= m && m + |Marker| <= n && MarkerAt(s, m);
      assert s[..k][m..m + |Marker|] == s[m..m + |Marker|];
      assert MarkerAt(s[..k], m);
    }
    if MarkerBefore(s[..k], n) {
      var m :| 0 <= m && m + |Marker| <= n && MarkerAt(s[..k], m);
      assert s[..k][m..m + |Marker|] == s[m..m + |Marker|];
      assert MarkerAt(s, m);
    }
  }

  /**
    `group_patt.match` accepts exactly the strings that carry a marker, then
    a '#' after it, with no newline before that '#'.
  */
  lemma GroupEntitlementShape(s: string)
    ensures IsGroupEntitlement(s) <==> GroupShape(s)
  {
    if IsGroupEntitlement(s) {
      var k :| 0 <= k <= |s| && GroupLanguage(s[..k]);
      var t := s[..k];
      var j :| 0 <= j < |t| && t[j] == '#' && MarkerBefore(t, j);
      MarkerBeforePrefix(s, k, j);
      assert s[..j] == t[..j];
      assert GroupShape(s);
    }
    if GroupShape(s) {
      var j :| 0 <= j < |s| && s[j] == '#' && MarkerBefore(s, j) && '\n' !in s[..j];
      var t := s[..j + 1];
      assert t == s[..j] + [s[j]];
      MarkerBeforePrefix(s, j + 1, j);
      assert t[j] == '#';
      assert GroupLanguage(t);
    }
  }

  /**
    A single left-to-right scan deciding `group_patt.match(s)`: it remembers
    whether a marker has been seen, stops with a match at the first '#' after
    one, and stops without a match at the first newline.
  */
  method MatchGroupPattern(s: string) returns (b: bool)
    ensures b <==> IsGroupEntitlement(s)
  {
    GroupEntitlementShape(s);
    var i := 0;
    var seen := false;
    while i < |s|
      invariant 0 <= i <= |s|
      invariant '\n' !in s[..i]
      invariant seen <==> MarkerBefore(s, i)
      invariant forall j :: 0 <= j < i ==> !(s[j] == '#' && MarkerBefore(s, j))
    {
      if s[i] == '\n' {
        forall j | i < j < |s|
          ensures '\n' in s[..j]
        {
          assert s[..j][i] == '\n';
        }
        return false;
      }
      if s[i] == '#' && seen {
        return true;
      }
      if i + 1 >= |Marker| && s[i + 1 - |Marker|..i + 1] == Marker {
        seen := true;
        assert MarkerAt(s, i + 1 - |Marker|);
      }
      assert s[..i + 1] == s[..i] + [s[i]];
      i := i + 1;
    }
    assert s[..i] == s;
    return false;
  }

  /**
    The first occurrence of the marker at or after `from`, as Python's
    `str.split` finds it.
  */
  function FindMarker(s: string, from: nat): (r: Option<nat>)
    ensures r.Some? ==> from <= r.value && MarkerAt(s, r.value)
    ensures r.Some? ==> forall k :: from <= k < r.value ==> !MarkerAt(s, k)
    ensures r.None? ==> forall k :: from <= k ==> !MarkerAt(s, k)
    decreases |s| - from
  {
    if from + |Marker| > |s| then None
    else if s[from..from + |Marker|] == Marker then Some(from)
    else FindMarker(s, from + 1)
  }

  /** Every string of the shape `a:group:b#rest` with no newline in `a` or `b` is a group entitlement. */
  lemma GroupEntitlementOfParts(a: string, b: string, rest: string)
    requires '\n' !in a && '\n' !in b
    ensures IsGroupEntitlement(a + Marker + b + "#" + rest)
  {
    var s := a + Marker + b + "#" + rest;
    var j := |a| + |Marker| + |b|;
    assert s[|a|..|a| + |Marker|] == Marker;
    assert MarkerAt(s, |a|);
    assert s[..j] == a + Marker + b;
    assert s[j] == '#';
    assert MarkerBefore(s, j);
    GroupEntitlementShape(s);
  }

  /** A string without '#' is no group entitlement. */
  lemma NoHashNoGroup(s: string)
    requires '#' !in s
    ensures !IsGroupEntitlement(s)
  {
    GroupEntitlementShape(s);
  }
}

=== FILE: inputs.dfy ===
/**
  The userinfo record the identity provider returns, read as a record of
  the claims the view uses.
*/
module Userinfo {

  datatype Claims = Claims(
    uniqueId: string,              // eduperson_unique_id
    email: string,
    emailVerified: bool,
    preferredUsername: string,
    givenName: string,
    familyName: string,
    entitlements: seq<string>)     // eduperson_entitlement
}

/** The two settings of django_helmholtz_aai/app_settings.py the login reads. */
module Settings {
  import opened GroupPattern

  /**
    `allowedVos`: the compiled allow-list patterns of HELMHOLTZ_ALLOWED_VOS_REGEXP,
    to which app_settings.py adds the compiled entries of
    HELMHOLTZ_ALLOWED_VOS (default empty). The gate reads this list;
    views.py reads HELMHOLTZ_ALLOWED_VOS instead, which
    `Permission.AllowGateAsWritten` models.
    `emailDuplicatesAllowed`: HELMHOLTZ_EMAIL_DUPLICATES_ALLOWED (default false).
  */
  datatype Config = Config(allowedVos: seq<Language>, emailDuplicatesAllowed: bool)

  /** The defaults of both settings. */
  function DefaultConfig(): Config {
    Config([], false)
  }

  /**
    An entry of an allow-list setting as Python holds it: a compiled
    pattern, or a plain string, which is what app_settings.py declares the
    entries of HELMHOLTZ_ALLOWED_VOS to be.
  */
  datatype AllowEntry = Compiled(pattern: Language) | Text(source: string)
}

=== FILE: models.dfy ===
/**
  The database rows the login reconciliation reads and writes
  (django_helmholtz_aai/models.py), as one immutable account store, and the
  display names derived from them.
*/
module Models {
  import opened Wrappers
  import opened GroupPattern

  /** A `HelmholtzUser` row; its `eduperson_unique_id` is its key in `Store.users`. */
  datatype User = User(username: string, firstName: string, lastName: string, email: string)

  /**
    A Django `Group` row as `__str__` sees it: `entitlement` is present exactly
    when a `HelmholtzVirtualOrganization` row extends the group.
  */
  datatype Group = Group(name: string, entitlement: Option<string>)

  /**
    The part of the database the login touches.
    - `users`: AAI users by `eduperson_unique_id`, the column declared unique.
    - `baseUsernames`: usernames of plain Django users that are not AAI users;
      they still occupy the unique username column.
    - `vos`: VOs by `eduperson_entitlement`, the column declared unique,
      mapped to the name of the group row they extend.
    - `plainGroups`: names of groups that are not VOs.
    - `voMembers`, `groupMembers`: the VO entitlements and the plain group
      names each AAI user belongs to.
  */
  datatype Store = Store(
    users: map<string, User>,
    baseUsernames: set<string>,
    vos: map<string, string>,
    plainGroups: set<string>,
    voMembers: map<string, set<string>>,
    groupMembers: map<string, set<string>>)

  /** A database error raised by a write or a lookup. */
  datatype StoreError =
    | UsernameInUse(username: string)          // unique constraint on the username column
    | GroupNameInUse(name: string)             // unique constraint on the group name column
    | VoDoesNotExist(entitlement: string)      // `.objects.get` found no row

  /** The entitlements of the VOs the user with key `uid` belongs to. */
  function VosOf(s: Store, uid: string): set<string> {
    if uid in s.voMembers then s.voMembers[uid] else {}
  }

  /** The names of the plain groups the user with key `uid` belongs to. */
  function GroupsOf(s: Store, uid: string): set<string> {
    if uid in s.groupMembers then s.groupMembers[uid] else {}
  }

  /** Some user, AAI or not, already has this username. */
  predicate UsernameTaken(s: Store, name: string) {
    name in s.baseUsernames || exists uid :: uid in s.users && s.users[uid].username == name
  }

  /** Some AAI user already has this email; plain Django users are not consulted. */
  predicate EmailRegistered(s: Store, email: string) {
    exists uid :: uid in s.users && s.users[uid].email == email
  }

  /** Some group, VO or not, already has this name. */
  predicate GroupNameTaken(s: Store, name: string) {
    name in s.plainGroups || name in s.vos.Values
  }

  /** The username column is unique over all Django users. */
  ghost predicate UsernamesUnique(s: Store) {
    && (forall a, b :: a in s.users && b in s.users && s.users[a].username == s.users[b].username ==> a == b)
    && (forall a :: a in s.users ==> s.users[a].username !in s.baseUsernames)
  }

  /** The group name column is unique over all groups, VOs included. */
  ghost predicate GroupNamesUnique(s: Store) {
    && (forall e1, e2 :: e1 in s.vos && e2 in s.vos && s.vos[e1] == s.vos[e2] ==> e1 == e2)
    && (forall e :: e in s.vos ==> s.vos[e] !in s.plainGroups)
  }

  /** Every membership row points at an existing user and an existing group. */
  ghost predicate MembershipsResolve(s: Store) {
    && s.voMembers.Keys <= s.users.Keys
    && (forall uid :: uid in s.voMembers ==> s.voMembers[uid] <= s.vos.Keys)
    && s.groupMembers.Keys <= s.users.Keys
    && (forall uid :: uid in s.groupMembers ==> s.groupMembers[uid] <= s.plainGroups)
  }

  /**
    The constraints the database schema enforces. Uniqueness of
    `eduperson_unique_id` and of `eduperson_entitlement` holds by
    construction: they are the keys of `users` and `vos`.
  */
  ghost predicate Valid(s: Store) {
    UsernamesUnique(s) && GroupNamesUnique(s) && MembershipsResolve(s)
  }

  /** The group row a VO of the store extends. */
  function VoGroup(s: Store, entitlement: string): (g: Group)
    requires entitlement in s.vos
    ensures g.entitlement == Some(entitlement)
  {
    Group(s.vos[entitlement], Some(entitlement))
  }

  /** Indexing the result of `split` beyond its single element. */
  datatype DisplayError = IndexError

  /** The marker at `i` is the first one in `name`. */
  predicate FirstMarkerAt(name: string, i: int) {
    MarkerAt(name, i) && forall k :: 0 <= k < i ==> !MarkerAt(name, k)
  }

  /**
    `display_name` of a VO: the text after the first marker of its name
    (`split(":group:", maxsplit=1)[1]`); a name without a marker raises.
  */
  function DisplayName(name: string): (r: Result<string, DisplayError>)
    ensures r.Success? <==> MarkerBefore(name, |name|)
    ensures r.Success? ==> exists i :: FirstMarkerAt(name, i) && name == name[..i] + Marker + r.value
  {
    match FindMarker(name, 0)
    case Some(i) =>
      assert name == name[..i] + Marker + name[i + |Marker|..];
      Success(name[i + |Marker|..])
    case None => Failure(IndexError)
  }

  /**
    `__str__` of a group: a VO shows its display name, any other group its
    raw name. A VO's own `__str__` is the first branch.
  */
  function GroupStr(g: Group): (r: Result<string, DisplayError>)
    ensures g.entitlement.None? ==> r == Success(g.name)
    ensures g.entitlement.Some? ==> (r.Success? <==> MarkerBefore(g.name, |g.name|))
    ensures g.entitlement.Some? && r.Success? ==>
      exists i :: FirstMarkerAt(g.name, i) && g.name == g.name[..i] + Marker + r.value
  {
    if g.entitlement.Some? then DisplayName(g.name) else Success(g.name)
  }

  /** A name accepted by `group_patt` has a display name: splitting it cannot raise. */
  lemma DisplayNameTotalOnGroupEntitlements(name: string)
    requires IsGroupEntitlement(name)
    ensures DisplayName(name).Success?
  {
    GroupEntitlementShape(name);
    var j :| 0 <= j < |name| && name[j] == '#' && MarkerBefore(name, j) && '\n' !in name[..j];
    var m :| 0 <= m && m + |Marker| <= j && MarkerAt(name, m);
    assert MarkerBefore(name, |name|);
  }
}

=== FILE: permission.dfy ===
/**
  The access gate `has_permission` of `HelmholtzAuthentificationView`
  (django_helmholtz_aai/views.py), run before anything is written.
*/
module Permission {
  import opened Wrappers
  import opened GroupPattern
  import opened Models
  import opened Userinfo
  import opened Settings

  /** The reason behind the single message a denial sets. */
  datatype DenyReason =
    | VosNotAllowed           // "Your virtual organizations are not allowed ..."
    | EmailNotVerified        // "Your email has not been verified."
    | EmailInUse(email: string)  // "A user with the email ... already exists."

  /** `is_new_user`: no AAI user has the claimed `eduperson_unique_id`. */
  predicate IsNewUser(s: Store, c: Claims) {
    c.uniqueId !in s.users
  }

  /** `any(patt.match(vo) for vo in entitlements)` for one pattern. */
  function AnyEntitlementMatches(p: Language, entitlements: seq<string>): (r: bool)
    ensures r <==> exists j :: 0 <= j < |entitlements| && PrefixMatch(p, entitlements[j])
  {
    if |entitlements| == 0 then false
    else PrefixMatch(p, entitlements[0]) || AnyEntitlementMatches(p, entitlements[1..])
  }

  /** `any(patt.match(vo) for patt, vo in product(patterns, entitlements))`. */
  function AnyPatternMatches(patterns: seq<Language>, entitlements: seq<string>): (r: bool)
    ensures r <==> exists i, j :: 0 <= i < |patterns| && 0 <= j < |entitlements| &&
                                 PrefixMatch(patterns[i], entitlements[j])
  {
    if |patterns| == 0 then false
    else AnyEntitlementMatches(patterns[0], entitlements) || AnyPatternMatches(patterns[1..], entitlements)
  }

  /** `_email_exists`: switched off when duplicates are allowed. */
  predicate EmailExists(cfg: Config, s: Store, email: string) {
    !cfg.emailDuplicatesAllowed && EmailRegistered(s, email)
  }

  /**
    `has_permission`: None lets the login proceed, Some carries the one
    reason it stops. The three checks run in a fixed order and the first
    that fails is the only one reported.
  */
  function HasPermission(cfg: Config, s: Store, c: Claims): (r: Option<DenyReason>)
    ensures r == Some(VosNotAllowed) <==> !AllowListPasses(cfg, c)
    ensures r == Some(EmailNotVerified) <==> AllowListPasses(cfg, c) && !c.emailVerified
    ensures r == Some(EmailInUse(c.email)) <==>
            AllowListPasses(cfg, c) && c.emailVerified && EmailBlocked(cfg, s, c)
    ensures r.None? <==> AllowListPasses(cfg, c) && c.emailVerified && !EmailBlocked(cfg, s, c)
    ensures r.Some? && r.value.EmailInUse? ==> r.value.email == c.email
  {
    if |cfg.allowedVos| > 0 && !AnyPatternMatches(cfg.allowedVos, c.entitlements) then
      Some(VosNotAllowed)
    else if !c.emailVerified then
      Some(EmailNotVerified)
    else if !IsNewUser(s, c) then
      if s.users[c.uniqueId].email != c.email && EmailExists(cfg, s, c.email) then
        Some(EmailInUse(c.email))
      else
        None
    else if EmailExists(cfg, s, c.email) then
      Some(EmailInUse(c.email))
    else
      None
  }

  /** The allow-list is empty, or some configured pattern matches some claimed entitlement. */
  predicate AllowListPasses(cfg: Config, c: Claims) {
    || |cfg.allowedVos| == 0
    || exists i, j :: 0 <= i < |cfg.allowedVos| && 0 <= j < |c.entitlements| &&
                      PrefixMatch(cfg.allowedVos[i], c.entitlements[j])
  }

  /**
    The email check refuses the login: duplicates are not allowed, some AAI
    user has the claimed email, and it is not the user logging in keeping
    the email already stored for them.
  */
  predicate EmailBlocked(cfg: Config, s: Store, c: Claims) {
    && !cfg.emailDuplicatesAllowed
    && EmailRegistered(s, c.email)
    && !(c.uniqueId in s.users && s.users[c.uniqueId].email == c.email)
  }

  /** A user who keeps the email already stored for them is never refused on email grounds. */
  lemma KeptEmailNeverBlocks(cfg: Config, s: Store, c: Claims)
    requires c.uniqueId in s.users && s.users[c.uniqueId].email == c.email
    ensures HasPermission(cfg, s, c) != Some(EmailInUse(c.email))
  {
  }

  /** Only AAI users are searched for the email: plain Django users never block it. */
  lemma GateIgnoresBaseUsers(cfg: Config, s: Store, c: Claims, names: set<string>)
    ensures HasPermission(cfg, s.(baseUsernames := names), c) == HasPermission(cfg, s, c)
  {
  }

  /** Calling `.match` on a plain string: `str` has no attribute `match`. */
  datatype AttributeError = NoMatchAttribute(source: string)

  /**
    The allow-list check as views.py writes it, over the setting the view
    reads, HELMHOLTZ_ALLOWED_VOS: `any(patt.match(vo) ...)` walks the product
    entry by entry and stops at the first match, and the first plain string
    it reaches raises.
  */
  function AllowListAsWritten(entries: seq<AllowEntry>, entitlements: seq<string>): (r: Result<bool, AttributeError>)
    ensures |entitlements| == 0 ==> r == Success(false)
    ensures r.Failure? ==> exists i :: 0 <= i < |entries| && entries[i] == Text(r.error.source)
    ensures r == Success(true) ==>
      exists i, j :: 0 <= i < |entries| && 0 <= j < |entitlements| &&
                     entries[i].Compiled? && PrefixMatch(entries[i].pattern, entitlements[j])
  {
    if |entries| == 0 || |entitlements| == 0 then Success(false)
    else match entries[0]
      case Text(src) => Failure(NoMatchAttribute(src))
      case Compiled(p) =>
        if AnyEntitlementMatches(p, entitlements) then Success(true)
        else
          var rest := AllowListAsWritten(entries[1..], entitlements);
          assert rest.Failure? ==> exists i :: 1 <= i < |entries| && entries[i] == Text(rest.error.source) by {
            if rest.Failure? {
              var i :| 0 <= i < |entries[1..]| && entries[1..][i] == Text(rest.error.source);
              assert entries[i + 1] == entries[1..][i];
            }
          }
          rest
  }

  /**
    The allow-list step of `has_permission` as views.py writes it: skipped
    when HELMHOLTZ_ALLOWED_VOS is empty, otherwise the `any` above decides.
    A success value of true lets the login go on to the email checks.
  */
  function AllowGateAsWritten(setting: seq<AllowEntry>, entitlements: seq<string>): (r: Result<bool, AttributeError>)
    ensures |setting| == 0 ==> r == Success(true)
    ensures |setting| > 0 && |entitlements| == 0 ==> r == Success(false)
    ensures r.Failure? ==> |entitlements| > 0 && exists i :: 0 <= i < |setting| && setting[i] == Text(r.error.source)
    ensures r == Success(true) && |setting| > 0 ==>
      exists i, j :: 0 <= i < |setting| && 0 <= j < |entitlements| &&
                     setting[i].Compiled? && PrefixMatch(setting[i].pattern, entitlements[j])
  {
    if |setting| == 0 then Success(true) else AllowListAsWritten(setting, entitlements)
  }

  /** The plain strings of a setting, entry by entry. */
  function AsText(names: seq<string>): (r: seq<AllowEntry>)
    ensures |r| == |names|
  {
    if |names| == 0 then [] else [Text(names[0])] + AsText(names[1..])
  }

  /** Compiled patterns, entry by entry. */
  function AsCompiled(patterns: seq<Language>): (r: seq<AllowEntry>)
    ensures |r| == |patterns|
  {
    if |patterns| == 0 then [] else [Compiled(patterns[0])] + AsCompiled(patterns[1..])
  }

  /**
    With HELMHOLTZ_ALLOWED_VOS holding plain strings, as app_settings.py
    declares it, the allow-list check raises on every login that claims
    any entitlement, whatever the patterns say.
  */
  lemma StringSettingRaises(names: seq<string>, entitlements: seq<string>)
    requires |names| > 0 && |entitlements| > 0
    ensures AllowListAsWritten(AsText(names), entitlements) == Failure(NoMatchAttribute(names[0]))
    ensures AllowGateAsWritten(AsText(names), entitlements) == Failure(NoMatchAttribute(names[0]))
  {
    assert AsText(names)[0] == Text(names[0]);
  }

  /**
    Over compiled patterns only, the check as written never raises and
    answers exactly as `AnyPatternMatches`, the check the gate uses on the
    compiled list.
  */
  lemma {:induction false} CompiledSettingMatches(patterns: seq<Language>, entitlements: seq<string>)
    ensures AllowListAsWritten(AsCompiled(patterns), entitlements) == Success(AnyPatternMatches(patterns, entitlements))
    decreases |patterns|
  {
    if |patterns| > 0 && |entitlements| > 0 {
      var entries := AsCompiled(patterns);
      assert entries[0] == Compiled(patterns[0]);
      assert entries[1..] == AsCompiled(patterns[1..]);
      CompiledSettingMatches(patterns[1..], entitlements);
    } else if |patterns| > 0 {
      assert !AnyEntitlementMatches(patterns[0], entitlements);
      CompiledSettingMatches(patterns[1..], entitlements);
    }
  }

  /**
    A deployment that sets only HELMHOLTZ_ALLOWED_VOS_REGEXP leaves
    HELMHOLTZ_ALLOWED_VOS empty, so the check as written is skipped and
    every login passes it, while the compiled list refuses a login whose
    entitlements no pattern matches.
  */
  lemma RegexpOnlySettingAdmitsAll(cfg: Config, s: Store, c: Claims)
    requires |cfg.allowedVos| > 0 && !AnyPatternMatches(cfg.allowedVos, c.entitlements)
    ensures AllowGateAsWritten([], c.entitlements) == Success(true)
    ensures HasPermission(cfg, s, c) == Some(VosNotAllowed)
  {
  }

  /**
    The allow-list step read from the compiled list HELMHOLTZ_ALLOWED_VOS_REGEXP,
    guard included, never raises and lets a login through exactly when the
    gate's allow-list check passes.
  */
  lemma CompiledGateAgrees(cfg: Config, c: Claims)
    ensures AllowGateAsWritten(AsCompiled(cfg.allowedVos), c.entitlements) == Success(AllowListPasses(cfg, c))
  {
    if |cfg.allowedVos| > 0 {
      CompiledSettingMatches(cfg.allowedVos, c.entitlements);
    }
  }
}

=== FILE: reconcile.dfy ===
/**
  Create-or-update of the AAI user (`create_user`, `update_user` in
  django_helmholtz_aai/views.py).
*/
module Reconcile {
  import opened Wrappers
  import opened Models
  import opened Userinfo
  import opened Signals

  /** The user row `create_aai_user` makes from the claims. */
  function NewUser(c: Claims): User {
    User(c.preferredUsername, c.givenName, c.familyName, c.email)
  }

  /**
    `create_user`: insert the user under its `eduperson_unique_id`, without
    groups, and send `aai_user_created`. The preferred username is taken as
    is; when it is already in use the unique username column refuses the
    insert and nothing is written.
  */
  function CreateUser(s: Store, c: Claims): (r: Effect)
    ensures r.fault.None? <==> !UsernameTaken(s, c.preferredUsername)
    ensures r.fault.Some? ==> r.store == s && r.events == []
    ensures r.fault.None? ==>
      && c.uniqueId in r.store.users
      && r.store.users[c.uniqueId].username == c.preferredUsername
      && r.store.users[c.uniqueId].email == c.email
      && r.store.users[c.uniqueId].firstName == c.givenName
      && r.store.users[c.uniqueId].lastName == c.familyName
      && r.store.users.Keys == s.users.Keys + {c.uniqueId}
      && (forall uid :: uid in s.users && uid != c.uniqueId ==> r.store.users[uid] == s.users[uid])
      && VosOf(r.store, c.uniqueId) == {} && GroupsOf(r.store, c.uniqueId) == {}
      && r.events == [UserCreated(c.uniqueId)]
    ensures forall u :: u != c.uniqueId ==> VosOf(r.store, u) == VosOf(s, u) && GroupsOf(r.store, u) == GroupsOf(s, u)
    ensures r.store.vos == s.vos && r.store.plainGroups == s.plainGroups
    ensures r.store.baseUsernames == s.baseUsernames
  {
    if UsernameTaken(s, c.preferredUsername) then
      Effect(s, [], Some(UsernameInUse(c.preferredUsername)))
    else
      var s' := s.(users := s.users[c.uniqueId := NewUser(c)],
                   voMembers := s.voMembers[c.uniqueId := {}],
                   groupMembers := s.groupMembers[c.uniqueId := {}]);
      Effect(s', [UserCreated(c.uniqueId)], None)
  }

  /** A new user is inserted only under a key not yet present, so the schema stays intact. */
  lemma CreateUserPreservesValid(s: Store, c: Claims)
    requires Valid(s) && c.uniqueId !in s.users
    ensures Valid(CreateUser(s, c).store)
  {
    if !UsernameTaken(s, c.preferredUsername) {
      InsertKeepsValid(s, c.uniqueId, NewUser(c));
    }
  }

  /** Inserting a user without memberships under a fresh key and a free username. */
  lemma InsertKeepsValid(s: Store, uid: string, u: User)
    requires Valid(s) && uid !in s.users && !UsernameTaken(s, u.username)
    ensures Valid(s.(users := s.users[uid := u], voMembers := s.voMembers[uid := {}],
                     groupMembers := s.groupMembers[uid := {}]))
  {
    assert forall a :: a in s.users ==> s.users[a].username != u.username;
  }

  /** The fields `update_user` may set. */
  datatype Field = Username | FirstName | LastName | Email

  /** `to_update`: the fields whose stored value differs from the claims, with the claimed values. */
  function ToUpdate(s: Store, u: User, c: Claims): map<Field, string> {
    var d0: map<Field, string> := map[];
    var d1 := if u.username != c.preferredUsername && !UsernameTaken(s, c.preferredUsername)
              then d0[Username := c.preferredUsername] else d0;
    var d2 := if u.firstName != c.givenName then d1[FirstName := c.givenName] else d1;
    var d3 := if u.lastName != c.familyName then d2[LastName := c.familyName] else d2;
    if u.email != c.email then d3[Email := c.email] else d3
  }

  /** `setattr(user, key, val)` for every entry of `to_update`. */
  function Apply(u: User, d: map<Field, string>): User {
    User(if Username in d then d[Username] else u.username,
         if FirstName in d then d[FirstName] else u.firstName,
         if LastName in d then d[LastName] else u.lastName,
         if Email in d then d[Email] else u.email)
  }

  /**
    The user after `to_update` is applied: the claimed names and email, and
    the preferred username only when no user at all has it yet; it differs
    from the stored user exactly when `to_update` is not empty.
  */
  lemma ApplyToUpdate(s: Store, u: User, c: Claims)
    ensures var u' := Apply(u, ToUpdate(s, u, c));
      && u'.firstName == c.givenName
      && u'.lastName == c.familyName
      && u'.email == c.email
      && (u'.username == c.preferredUsername <==>
          u.username == c.preferredUsername || !UsernameTaken(s, c.preferredUsername))
      && (u'.username != c.preferredUsername ==> u'.username == u.username)
      && (u' == u <==> |ToUpdate(s, u, c)| == 0)
  {
    var d := ToUpdate(s, u, c);
    if |d| > 0 {
      var f :| f in d;
    } else {
      assert d == map[];
    }
  }

  /**
    `update_user`: copy the claimed names and email onto the stored user;
    take the preferred username only when no user at all has it yet. When
    something changed the row is saved and `aai_user_updated` sent once;
    otherwise nothing is written or sent.
  */
  function UpdateUser(s: Store, c: Claims): (r: (Store, seq<Event>))
    requires c.uniqueId in s.users
    ensures r.0 == s.(users := r.0.users)
    ensures r.0.users.Keys == s.users.Keys
    ensures forall uid :: uid in s.users && uid != c.uniqueId ==> r.0.users[uid] == s.users[uid]
    ensures r.0.users[c.uniqueId].firstName == c.givenName
    ensures r.0.users[c.uniqueId].lastName == c.familyName
    ensures r.0.users[c.uniqueId].email == c.email
    ensures r.0.users[c.uniqueId].username == c.preferredUsername <==>
            s.users[c.uniqueId].username == c.preferredUsername || !UsernameTaken(s, c.preferredUsername)
    ensures r.0.users[c.uniqueId].username != c.preferredUsername ==>
            r.0.users[c.uniqueId].username == s.users[c.uniqueId].username
    ensures r.0.users[c.uniqueId] == s.users[c.uniqueId] ==> r.0 == s && r.1 == []
    ensures r.0.users[c.uniqueId] != s.users[c.uniqueId] ==> r.1 == [UserUpdated(c.uniqueId)]
  {
    var u := s.users[c.uniqueId];
    var d := ToUpdate(s, u, c);
    ApplyToUpdate(s, u, c);
    if |d| > 0 then
      (s.(users := s.users[c.uniqueId := Apply(u, d)]), [UserUpdated(c.uniqueId)])
    else
      (s, [])
  }

  /** A username is only ever adopted when free, so updates keep the schema intact. */
  lemma UpdateUserPreservesValid(s: Store, c: Claims)
    requires Valid(s) && c.uniqueId in s.users
    ensures Valid(UpdateUser(s, c).0)
  {
    var s' := UpdateUser(s, c).0;
    var uid := c.uniqueId;
    forall a, b | a in s'.users && b in s'.users && s'.users[a].username == s'.users[b].username
      ensures a == b
    {
      if a != b && (a == uid || b == uid) {
        var other := if a == uid then b else a;
        if s'.users[uid].username == c.preferredUsername && s.users[uid].username != c.preferredUsername {
          assert s.users[other].username == c.preferredUsername;
          assert UsernameTaken(s, c.preferredUsername);
          assert false;
        }
      }
    }
  }

  /** Updating twice with the same claims: the second update writes and sends nothing. */
  lemma UpdateUserIdempotent(s: Store, c: Claims)
    requires c.uniqueId in s.users
    ensures var s1 := UpdateUser(s, c).0; UpdateUser(s1, c) == (s1, [])
  {
    var s1 := UpdateUser(s, c).0;
    var u1 := s1.users[c.uniqueId];
    if u1.username != c.preferredUsername {
      assert u1.username == s.users[c.uniqueId].username;
      assert UsernameTaken(s, c.preferredUsername);
      if c.preferredUsername !in s.baseUsernames {
        var holder :| holder in s.users && s.users[holder].username == c.preferredUsername;
        assert holder != c.uniqueId;
        assert s1.users[holder].username == c.preferredUsername;
      }
      assert UsernameTaken(s1, c.preferredUsername);
    }
    assert ToUpdate(s1, u1, c) == map[];
  }
}

=== FILE: scenarios.dfy ===
/**
  The login scenarios of django_helmholtz_aai/tests/test_authentification_view.py,
  stated for every iteration order the runtime may choose.
*/
module Scenarios {
  import opened Wrappers
  import opened GroupPattern
  import opened Models
  import opened Userinfo
  import opened Settings
  import opened Signals
  import opened Permission
  import opened VoSync
  import opened AuthView

  const Namespace: string := "urn:geant:helmholtz.de"
  const Realm: string := "login.helmholtz.de"
  /** "urn:geant:helmholtz.de:group:some_VO#login.helmholtz.de" */
  const GroupVo: string := Namespace + Marker + "some_VO" + "#" + Realm
  /** "urn:geant:helmholtz.de:group:some_VO:subgroup#login.helmholtz.de" */
  const SubgroupVo: string := Namespace + Marker + "some_VO:subgroup" + "#" + Realm
  const Capability: string := "urn:mace:dir:entitlement:common-lib-terms"
  const FixtureId: string := "bdeba21823423456sad3ff4sdfew2444@login.helmholtz-data-federation.de"

  /** The `userinfo` fixture. */
  function Fixture(): Claims {
    Claims(FixtureId, "user@example.com", true, "dummy_user", "Firstname", "Lastname",
           [GroupVo, SubgroupVo, Capability])
  }

  /** The empty test database. */
  function EmptyStore(): Store {
    Store(map[], {}, map[], {}, map[], map[])
  }

  /** The language of `.*needle.*` for a needle free of newlines and metacharacters. */
  function Around(needle: string): Language {
    t => '\n' !in t && exists i :: 0 <= i <= |t| && OccursAt(t, needle, i)
  }

  predicate OccursAt(t: string, needle: string, i: int) {
    0 <= i && i + |needle| <= |t| && t[i..i + |needle|] == needle
  }

  lemma {:induction false} DistinctElements(xs: seq<string>)
    requires Distinct(xs)
    ensures |Elements(xs)| == |xs|
    decreases |xs|
  {
    if |xs| > 0 {
      DistinctElements(xs[1..]);
      assert Elements(xs) == {xs[0]} + Elements(xs[1..]);
      assert xs[0] !in Elements(xs[1..]) by {
        forall i | 0 <= i < |xs[1..]| ensures xs[1..][i] != xs[0] {
          assert xs[1..][i] == xs[i + 1];
        }
      }
    }
  }

  lemma GroupVoIsGroup()
    ensures IsGroupEntitlement(GroupVo)
  {
    GroupEntitlementOfParts(Namespace, "some_VO", Realm);
  }

  lemma SubgroupVoIsGroup()
    ensures IsGroupEntitlement(SubgroupVo)
  {
    GroupEntitlementOfParts(Namespace, "some_VO:subgroup", Realm);
  }

  lemma CapabilityIsNoGroup()
    ensures !IsGroupEntitlement(Capability)
  {
    NoHashNoGroup(Capability);
  }

  /** The two group entitlements of the fixture are VOs; the capability flag is not. */
  lemma FixtureDesired()
    ensures Desired(Fixture()) == {GroupVo, SubgroupVo}
  {
    GroupVoIsGroup();
    SubgroupVoIsGroup();
    CapabilityIsNoGroup();
    var c := Fixture();
    forall e ensures e in Desired(c) <==> e in {GroupVo, SubgroupVo} {
      assert e in c.entitlements <==> e == GroupVo || e == SubgroupVo || e == Capability;
    }
  }

  /** An addition loop over two new VOs creates and enters each in turn. */
  lemma TwoNewVos(known: set<string>, xs: seq<string>)
    requires |xs| == 2 && xs[0] !in known && xs[1] !in known
    ensures AddEvents(known, xs) == [VoCreated(xs[0]), VoEntered(xs[0]), VoCreated(xs[1]), VoEntered(xs[1])]
  {
    var tail := xs[1..];
    assert tail[0] == xs[1] && tail[1..] == [];
    assert AddEvents(known, tail) == [VoCreated(xs[1]), VoEntered(xs[1])] + AddEvents(known, tail[1..]);
    assert AddEvents(known, xs) == [VoCreated(xs[0]), VoEntered(xs[0])] + AddEvents(known, tail);
  }

  /** The empty database meets the schema's constraints. */
  lemma EmptyStoreValid()
    ensures Valid(EmptyStore())
  {}

  /** On the empty database only an unverified email stops the default gate. */
  lemma EmptyStorePermits(c: Claims)
    requires c.emailVerified
    ensures HasPermission(DefaultConfig(), EmptyStore(), c).None?
  {}

  lemma HeadIsElement(xs: seq<string>)
    requires |xs| > 0
    ensures xs[0] in Elements(xs)
  {}

  /** A new user leaves no VO. */
  lemma NothingToLeaveOnEmptyStore(c: Claims, ord: Order)
    requires LoginOrderFits(EmptyStore(), c, ord)
    ensures ord.removals == []
  {
    if |ord.removals| > 0 {
      HeadIsElement(ord.removals);
    }
  }

  /**
    A first login on the empty database with a verified email is permitted
    and succeeds: it creates the user, creates and enters every VO it
    names, and logs in.
  */
  lemma FirstLoginOnEmptyStore(c: Claims, ord: Order)
    requires LoginOrderFits(EmptyStore(), c, ord)
    requires c.emailVerified
    ensures Dispatch(DefaultConfig(), EmptyStore(), c, ord).outcome.LoggedIn?
    ensures Dispatch(DefaultConfig(), EmptyStore(), c, ord).events
         == [UserCreated(c.uniqueId)] + AddEvents({}, ord.additions) + [UserLoggedIn(c.uniqueId)]
  {
    EmptyStoreValid();
    EmptyStorePermits(c);
    PermittedCallbackSucceeds(DefaultConfig(), EmptyStore(), c, ord);
    NothingToLeaveOnEmptyStore(c, ord);
    assert UserSignals(EmptyStore(), c) == [UserCreated(c.uniqueId)];
    assert EmptyStore().vos.Keys == {};
    assert LeftEvents(ord.removals) + AddEvents({}, ord.additions) == AddEvents({}, ord.additions);
  }

  /** The signals of a first login whose addition loop creates two VOs. */
  lemma TwoVoTraceSignals(uid: string, xs: seq<string>)
    requires |xs| == 2
    ensures SignalNames([UserCreated(uid)] + AddEvents({}, xs) + [UserLoggedIn(uid)])
         == [AaiUserCreated, AaiVoCreated, AaiVoEntered, AaiVoCreated, AaiVoEntered, AaiUserLoggedIn]
  {
    TwoNewVos({}, xs);
    var evs := [UserCreated(uid)] + AddEvents({}, xs) + [UserLoggedIn(uid)];
    assert evs == [UserCreated(uid), VoCreated(xs[0]), VoEntered(xs[0]), VoCreated(xs[1]), VoEntered(xs[1]), UserLoggedIn(uid)];
    var r := SignalNames(evs);
    assert r[0] == AaiUserCreated && r[1] == AaiVoCreated && r[2] == AaiVoEntered;
    assert r[3] == AaiVoCreated && r[4] == AaiVoEntered && r[5] == AaiUserLoggedIn;
  }

  /** A first login naming two VOs sends the two creations and entries between the user signals. */
  lemma FirstLoginWithTwoVos(c: Claims, ord: Order)
    requires LoginOrderFits(EmptyStore(), c, ord)
    requires c.emailVerified && |Desired(c)| == 2
    ensures Dispatch(DefaultConfig(), EmptyStore(), c, ord).outcome.LoggedIn?
    ensures SignalNames(Dispatch(DefaultConfig(), EmptyStore(), c, ord).events)
         == [AaiUserCreated, AaiVoCreated, AaiVoEntered, AaiVoCreated, AaiVoEntered, AaiUserLoggedIn]
  {
    FirstLoginOnEmptyStore(c, ord);
    assert Elements(ord.additions) == Desired(c);
    DistinctElements(ord.additions);
    TwoVoTraceSignals(c.uniqueId, ord.additions);
  }

  lemma FixtureVosDiffer()
    ensures GroupVo != SubgroupVo
  {
    assert |GroupVo| < |SubgroupVo|;
  }

  /**
    First login with the fixture: `aai_user_created`, then creation and
    entry of both VOs, then `aai_user_logged_in`.
  */
  lemma FirstLoginSignals(ord: Order)
    requires LoginOrderFits(EmptyStore(), Fixture(), ord)
    ensures Dispatch(DefaultConfig(), EmptyStore(), Fixture(), ord).outcome.LoggedIn?
    ensures SignalNames(Dispatch(DefaultConfig(), EmptyStore(), Fixture(), ord).events)
         == [AaiUserCreated, AaiVoCreated, AaiVoEntered, AaiVoCreated, AaiVoEntered, AaiUserLoggedIn]
  {
    FixtureDesired();
    FixtureVosDiffer();
    FirstLoginWithTwoVos(Fixture(), ord);
  }

  /** The database after the fixture's first login. */
  function AfterFirstLogin(ord: Order): Store
    requires LoginOrderFits(EmptyStore(), Fixture(), ord)
  {
    Dispatch(DefaultConfig(), EmptyStore(), Fixture(), ord).store
  }

  /** The row `create_aai_user` writes for the fixture. */
  function FixtureUser(): User {
    User("dummy_user", "Firstname", "Lastname", "user@example.com")
  }

  /** `s` holds exactly the fixture's user, as the first login leaves it, in both VOs. */
  ghost predicate HoldsFixtureUser(s: Store) {
    && Valid(s)
    && s.users.Keys == {FixtureId}
    && s.users[FixtureId] == FixtureUser()
    && s.baseUsernames == {}
    && VosOf(s, FixtureId) == {GroupVo, SubgroupVo}
  }

  /** `test_basic_get`: the first login stores the fixture's user under its claimed username. */
  lemma FirstLoginState(ord: Order)
    requires LoginOrderFits(EmptyStore(), Fixture(), ord)
    ensures HoldsFixtureUser(AfterFirstLogin(ord))
  {
    FirstLoginSignals(ord);
    LoggedInOnEmptyStore(Fixture(), ord);
    FixtureDesired();
  }

  /** A successful login on the empty database leaves exactly the claimed user, in the claimed VOs. */
  lemma LoggedInOnEmptyStore(c: Claims, ord: Order)
    requires LoginOrderFits(EmptyStore(), c, ord)
    requires Dispatch(DefaultConfig(), EmptyStore(), c, ord).outcome.LoggedIn?
    ensures var s1 := Dispatch(DefaultConfig(), EmptyStore(), c, ord).store;
      && Valid(s1)
      && s1.users.Keys == {c.uniqueId}
      && s1.users[c.uniqueId] == User(c.preferredUsername, c.givenName, c.familyName, c.email)
      && s1.baseUsernames == {}
      && VosOf(s1, c.uniqueId) == Desired(c)
  {
    var s1 := Dispatch(DefaultConfig(), EmptyStore(), c, ord).store;
    EmptyStoreValid();
    DispatchPreservesValid(DefaultConfig(), EmptyStore(), c, ord);
    assert s1.users.Keys == {c.uniqueId};
  }

  lemma SignalsOfOne(a: Event)
    ensures SignalNames([a]) == [SignalOf(a)]
  {
    assert SignalNames([a])[0] == SignalOf(a);
  }

  /** The signal names of a two-signal trace. */
  lemma SignalsOfTwo(a: Event, b: Event)
    ensures SignalNames([a, b]) == [SignalOf(a), SignalOf(b)]
  {
    var r := SignalNames([a, b]);
    assert r[0] == SignalOf(a) && r[1] == SignalOf(b);
  }

  /** A returning user the gate lets through and who creates no VO logs in with the success trace. */
  lemma ReturningUserLogsIn(cfg: Config, s: Store, c: Claims, ord: Order)
    requires Valid(s) && LoginOrderFits(s, c, ord)
    requires HasPermission(cfg, s, c).None? && !IsNewUser(s, c)
    requires Desired(c) <= VosOf(s, c.uniqueId)
    ensures Dispatch(cfg, s, c, ord).outcome.LoggedIn?
    ensures Dispatch(cfg, s, c, ord).events == SuccessTrace(s, c, ord)
  {
    assert Desired(c) - StartingVos(s, c) == {};
    PermittedCallbackSucceeds(cfg, s, c, ord);
  }

  /** A returning user already in every VO it names enters none. */
  lemma NothingToEnter(s: Store, c: Claims, ord: Order)
    requires LoginOrderFits(s, c, ord) && !IsNewUser(s, c)
    requires Desired(c) <= VosOf(s, c.uniqueId)
    ensures ord.additions == []
  {
    if |ord.additions| > 0 {
      HeadIsElement(ord.additions);
    }
  }

  /** The trace of a returning user who agrees with the claims and only drops VOs. */
  lemma AgreeingUserTrace(s: Store, c: Claims, ord: Order)
    requires LoginOrderFits(s, c, ord) && UserAgrees(s, c)
    requires Desired(c) <= VosOf(s, c.uniqueId)
    ensures SuccessTrace(s, c, ord) == LeftEvents(ord.removals) + [UserLoggedIn(c.uniqueId)]
  {
    NothingToEnter(s, c, ord);
    assert UserSignals(s, c) == [];
  }

  /** The trace of a returning user who needs an update and whose VOs already match. */
  lemma UpdatedUserTrace(s: Store, c: Claims, ord: Order)
    requires LoginOrderFits(s, c, ord) && c.uniqueId in s.users && NeedsUpdate(s, c)
    requires VosOf(s, c.uniqueId) == Desired(c)
    ensures SuccessTrace(s, c, ord) == [UserUpdated(c.uniqueId), UserLoggedIn(c.uniqueId)]
  {
    NothingToEnter(s, c, ord);
    if |ord.removals| > 0 {
      HeadIsElement(ord.removals);
    }
    assert UserSignals(s, c) == [UserUpdated(c.uniqueId)];
  }

  /**
    A returning user whose stored data agree with the claims and who only
    drops VOs sends one `aai_vo_left` per dropped VO, then the login signal.
  */
  lemma ReturningUserLeavesVos(cfg: Config, s: Store, c: Claims, ord: Order)
    requires Valid(s) && LoginOrderFits(s, c, ord)
    requires UserAgrees(s, c) && AllowListPasses(cfg, c) && c.emailVerified
    requires Desired(c) <= VosOf(s, c.uniqueId)
    ensures Dispatch(cfg, s, c, ord).outcome.LoggedIn?
    ensures Dispatch(cfg, s, c, ord).events == LeftEvents(ord.removals) + [UserLoggedIn(c.uniqueId)]
  {
    AgreeingUserIsPermitted(cfg, s, c);
    ReturningUserLogsIn(cfg, s, c, ord);
    AgreeingUserTrace(s, c, ord);
  }

  /**
    A returning user that the gate lets through, that needs an update and
    whose VOs already match sends `aai_user_updated`, then the login signal.
  */
  lemma ReturningUserUpdated(cfg: Config, s: Store, c: Claims, ord: Order)
    requires Valid(s) && LoginOrderFits(s, c, ord)
    requires c.uniqueId in s.users && NeedsUpdate(s, c)
    requires HasPermission(cfg, s, c).None?
    requires VosOf(s, c.uniqueId) == Desired(c)
    ensures Dispatch(cfg, s, c, ord).outcome.LoggedIn?
    ensures Dispatch(cfg, s, c, ord).events == [UserUpdated(c.uniqueId), UserLoggedIn(c.uniqueId)]
  {
    ReturningUserLogsIn(cfg, s, c, ord);
    UpdatedUserTrace(s, c, ord);
  }

  /** The fixture with its second entitlement, the subgroup, dropped. */
  function WithoutSubgroup(): Claims {
    Fixture().(entitlements := [GroupVo, Capability])
  }

  lemma WithoutSubgroupDesired()
    ensures Desired(WithoutSubgroup()) == {GroupVo}
  {
    GroupVoIsGroup();
    CapabilityIsNoGroup();
    var c := WithoutSubgroup();
    forall e ensures e in Desired(c) <==> e == GroupVo {
      assert e in c.entitlements <==> e == GroupVo || e == Capability;
    }
  }

  /** A set of one element is enumerated by that element alone. */
  lemma EnumeratesSingleton(xs: seq<string>, x: string)
    requires Enumerates(xs, {x})
    ensures xs == [x]
  {
    DistinctElements(xs);
    HeadIsElement(xs);
  }

  /** A user who drops exactly one VO removes that VO alone. */
  lemma OneRemoval(s: Store, c: Claims, x: string, ord: Order)
    requires LoginOrderFits(s, c, ord) && !IsNewUser(s, c)
    requires x !in Desired(c) && VosOf(s, c.uniqueId) == Desired(c) + {x}
    ensures ord.removals == [x]
  {
    assert StartingVos(s, c) - Desired(c) == {x};
    EnumeratesSingleton(ord.removals, x);
  }

  lemma LeftOneSignals(x: string, uid: string)
    ensures SignalNames(LeftEvents([x]) + [UserLoggedIn(uid)]) == [AaiVoLeft, AaiUserLoggedIn]
  {
    assert LeftEvents([x]) + [UserLoggedIn(uid)] == [VoLeft(x), UserLoggedIn(uid)];
    SignalsOfTwo(VoLeft(x), UserLoggedIn(uid));
  }

  /**
    A returning user who agrees with the claims and drops exactly one VO
    sends `aai_vo_left`, then `aai_user_logged_in`, and keeps the others.
  */
  lemma ReturningUserLeavesOneVo(cfg: Config, s: Store, c: Claims, x: string, ord: Order)
    requires Valid(s) && LoginOrderFits(s, c, ord)
    requires UserAgrees(s, c) && AllowListPasses(cfg, c) && c.emailVerified
    requires x !in Desired(c) && VosOf(s, c.uniqueId) == Desired(c) + {x}
    ensures var r := Dispatch(cfg, s, c, ord);
      && r.outcome.LoggedIn?
      && SignalNames(r.events) == [AaiVoLeft, AaiUserLoggedIn]
      && VosOf(r.store, c.uniqueId) == Desired(c)
  {
    ReturningUserLeavesVos(cfg, s, c, ord);
    OneRemoval(s, c, x, ord);
    LeftOneSignals(x, c.uniqueId);
  }

  lemma ChangedVoFrom(s: Store, ord: Order)
    requires HoldsFixtureUser(s) && LoginOrderFits(s, WithoutSubgroup(), ord)
    ensures var r := Dispatch(DefaultConfig(), s, WithoutSubgroup(), ord);
      && r.outcome.LoggedIn?
      && SignalNames(r.events) == [AaiVoLeft, AaiUserLoggedIn]
      && VosOf(r.store, FixtureId) == {GroupVo}
  {
    WithoutSubgroupDesired();
    FixtureVosDiffer();
    assert UserAgrees(s, WithoutSubgroup());
    ReturningUserLeavesOneVo(DefaultConfig(), s, WithoutSubgroup(), SubgroupVo, ord);
  }

  /**
    `test_change_vo`: dropping the subgroup sends `aai_vo_left` and then
    `aai_user_logged_in`, and leaves the user in the remaining VO.
  */
  lemma ChangedVoSignals(ord1: Order, ord2: Order)
    requires LoginOrderFits(EmptyStore(), Fixture(), ord1)
    requires LoginOrderFits(AfterFirstLogin(ord1), WithoutSubgroup(), ord2)
    ensures var r := Dispatch(DefaultConfig(), AfterFirstLogin(ord1), WithoutSubgroup(), ord2);
      && r.outcome.LoggedIn?
      && SignalNames(r.events) == [AaiVoLeft, AaiUserLoggedIn]
      && VosOf(r.store, FixtureId) == {GroupVo}
  {
    FirstLoginState(ord1);
    ChangedVoFrom(AfterFirstLogin(ord1), ord2);
  }

  /**
    A user who agrees with the claims, passes the gate and is in exactly
    the VOs named logs in writing nothing and sending only the login signal.
  */
  lemma AgreeingUserLogsInQuietly(cfg: Config, s: Store, c: Claims)
    requires UserAgrees(s, c) && AllowListPasses(cfg, c) && c.emailVerified
    requires VosOf(s, c.uniqueId) == Desired(c)
    ensures LoginOrderFits(s, c, Order([], []))
    ensures Dispatch(cfg, s, c, Order([], [])) == LoginResult(s, [UserLoggedIn(c.uniqueId)], LoggedIn(c.uniqueId))
  {
    AgreeingUserIsPermitted(cfg, s, c);
    AgreeingUserGetIsQuiet(s, c);
  }

  /** The stored fixture user agrees with the fixture and is in exactly its VOs. */
  lemma FixtureUserAgrees(s: Store)
    requires HoldsFixtureUser(s)
    ensures UserAgrees(s, Fixture()) && VosOf(s, FixtureId) == Desired(Fixture())
  {
    FixtureDesired();
  }

  lemma RepeatedLoginFrom(s: Store)
    requires HoldsFixtureUser(s)
    ensures LoginOrderFits(s, Fixture(), Order([], []))
    ensures Dispatch(DefaultConfig(), s, Fixture(), Order([], [])).store == s
    ensures SignalNames(Dispatch(DefaultConfig(), s, Fixture(), Order([], [])).events) == [AaiUserLoggedIn]
  {
    FixtureUserAgrees(s);
    AgreeingUserLogsInQuietly(DefaultConfig(), s, Fixture());
    SignalsOfOne(UserLoggedIn(FixtureId));
  }

  /** Repeating the fixture's login right after the first leaves the store unchanged and sends only `aai_user_logged_in`. */
  lemma RepeatedFixtureLogin(ord: Order)
    requires LoginOrderFits(EmptyStore(), Fixture(), ord)
    ensures LoginOrderFits(AfterFirstLogin(ord), Fixture(), Order([], []))
    ensures Dispatch(DefaultConfig(), AfterFirstLogin(ord), Fixture(), Order([], [])).store == AfterFirstLogin(ord)
    ensures SignalNames(Dispatch(DefaultConfig(), AfterFirstLogin(ord), Fixture(), Order([], [])).events)
         == [AaiUserLoggedIn]
  {
    FirstLoginState(ord);
    RepeatedLoginFrom(AfterFirstLogin(ord));
  }

  const NewUsername: string := "max.mustermann"
  const NewEmail: string := "newmail@example.com"

  function Renamed(): Claims {
    Fixture().(preferredUsername := NewUsername)
  }

  function Remailed(): Claims {
    Fixture().(email := NewEmail)
  }

  function SecondIdentity(): Claims {
    Fixture().(uniqueId := FixtureId + "123")
  }

  /** The renamed claims pass the gate and call for an update of the stored fixture user. */
  lemma RenamedNeedsUpdate(s: Store)
    requires HoldsFixtureUser(s)
    ensures NeedsUpdate(s, Renamed()) && HasPermission(DefaultConfig(), s, Renamed()).None?
    ensures VosOf(s, FixtureId) == Desired(Renamed())
  {
    FixtureDesired();
    assert |NewUsername| != |FixtureUser().username|;
    assert !UsernameTaken(s, NewUsername);
    KeptEmailNeverBlocks(DefaultConfig(), s, Renamed());
  }

  /** A store whose users are at most `uid`, and no base users, has `name` taken only by `uid`. */
  lemma SoleUserName(s: Store, uid: string, name: string)
    requires s.users.Keys <= {uid} && s.baseUsernames == {} && UsernameTaken(s, name)
    ensures uid in s.users && s.users[uid].username == name
  {}

  /**
    The only user of a store, updated from claims that pass the gate,
    remains the only user, now with the claimed email and, if it was free,
    the claimed username; the signals are `aai_user_updated`, then the login.
  */
  lemma SoleUserUpdated(cfg: Config, s: Store, c: Claims, ord: Order)
    requires Valid(s) && LoginOrderFits(s, c, ord)
    requires s.users.Keys == {c.uniqueId} && s.baseUsernames == {} && NeedsUpdate(s, c)
    requires HasPermission(cfg, s, c).None? && VosOf(s, c.uniqueId) == Desired(c)
    ensures var r := Dispatch(cfg, s, c, ord);
      && r.outcome.LoggedIn?
      && r.store.users.Keys == {c.uniqueId}
      && r.store.users[c.uniqueId].email == c.email
      && r.store.users[c.uniqueId].username == c.preferredUsername
      && SignalNames(r.events) == [AaiUserUpdated, AaiUserLoggedIn]
  {
    ReturningUserUpdated(cfg, s, c, ord);
    SignalsOfTwo(UserUpdated(c.uniqueId), UserLoggedIn(c.uniqueId));
    var r := Dispatch(cfg, s, c, ord);
    if r.store.users[c.uniqueId].username != c.preferredUsername {
      SoleUserName(r.store, c.uniqueId, c.preferredUsername);
    }
  }

  lemma RenamedFrom(s: Store, ord: Order)
    requires HoldsFixtureUser(s) && LoginOrderFits(s, Renamed(), ord)
    ensures var r := Dispatch(DefaultConfig(), s, Renamed(), ord);
      && r.outcome.LoggedIn?
      && r.store.users[FixtureId].username == NewUsername
      && SignalNames(r.events) == [AaiUserUpdated, AaiUserLoggedIn]
  {
    RenamedNeedsUpdate(s);
    SoleUserUpdated(DefaultConfig(), s, Renamed(), ord);
  }

  /**
    `test_change_username`: the new preferred username is free, so it
    replaces the stored one, with `aai_user_updated` before the login signal.
  */
  lemma ChangedUsernameSignals(ord1: Order, ord2: Order)
    requires LoginOrderFits(EmptyStore(), Fixture(), ord1)
    requires LoginOrderFits(AfterFirstLogin(ord1), Renamed(), ord2)
    ensures var r := Dispatch(DefaultConfig(), AfterFirstLogin(ord1), Renamed(), ord2);
      && r.outcome.LoggedIn?
      && r.store.users[FixtureId].username == NewUsername
      && SignalNames(r.events) == [AaiUserUpdated, AaiUserLoggedIn]
  {
    FirstLoginState(ord1);
    RenamedFrom(AfterFirstLogin(ord1), ord2);
  }

  /** In a store whose only user has email `e`, `e` is registered and no other email is. */
  lemma SoleUserEmail(s: Store, uid: string, e: string, other: string)
    requires s.users.Keys <= {uid} && uid in s.users && s.users[uid].email == e && e != other
    ensures EmailRegistered(s, e) && !EmailRegistered(s, other)
  {}

  /** The claims with a new, unused email pass the gate and call for an update. */
  lemma RemailedNeedsUpdate(s: Store)
    requires HoldsFixtureUser(s)
    ensures NeedsUpdate(s, Remailed()) && HasPermission(DefaultConfig(), s, Remailed()).None?
    ensures VosOf(s, FixtureId) == Desired(Remailed())
  {
    FixtureDesired();
    assert |NewEmail| != |FixtureUser().email|;
    assert !EmailRegistered(s, NewEmail);
  }

  lemma RemailedFrom(s: Store, ord: Order)
    requires HoldsFixtureUser(s) && LoginOrderFits(s, Remailed(), ord)
    ensures var r := Dispatch(DefaultConfig(), s, Remailed(), ord);
      && r.outcome.LoggedIn?
      && r.store.users.Keys == {FixtureId}
      && r.store.users[FixtureId].email == NewEmail
      && EmailRegistered(r.store, NewEmail)
      && !EmailRegistered(r.store, FixtureUser().email)
      && SignalNames(r.events) == [AaiUserUpdated, AaiUserLoggedIn]
  {
    RemailedNeedsUpdate(s);
    SoleUserUpdated(DefaultConfig(), s, Remailed(), ord);
    var r := Dispatch(DefaultConfig(), s, Remailed(), ord);
    assert |NewEmail| != |FixtureUser().email|;
    SoleUserEmail(r.store, FixtureId, NewEmail, FixtureUser().email);
  }

  /**
    `test_change_email`: the new email is stored, no user keeps the old one,
    and `aai_user_updated` comes before the login signal.
  */
  lemma ChangedEmailSignals(ord1: Order, ord2: Order)
    requires LoginOrderFits(EmptyStore(), Fixture(), ord1)
    requires LoginOrderFits(AfterFirstLogin(ord1), Remailed(), ord2)
    ensures var r := Dispatch(DefaultConfig(), AfterFirstLogin(ord1), Remailed(), ord2);
      && r.outcome.LoggedIn?
      && r.store.users.Keys == {FixtureId}
      && r.store.users[FixtureId].email == NewEmail
      && EmailRegistered(r.store, NewEmail)
      && !EmailRegistered(r.store, FixtureUser().email)
      && SignalNames(r.events) == [AaiUserUpdated, AaiUserLoggedIn]
  {
    FirstLoginState(ord1);
    RemailedFrom(AfterFirstLogin(ord1), ord2);
  }

  lemma SecondIdentityFrom(s: Store, ord: Order)
    requires HoldsFixtureUser(s) && LoginOrderFits(s, SecondIdentity(), ord)
    ensures Dispatch(DefaultConfig(), s, SecondIdentity(), ord)
         == LoginResult(s, [], Denied(EmailInUse(FixtureUser().email)))
  {
    var c := SecondIdentity();
    assert |c.uniqueId| != |FixtureId|;
    assert IsNewUser(s, c);
    assert s.users[FixtureId].email == c.email;
    assert EmailRegistered(s, c.email);
  }

  /**
    `test_email_duplicate`: a second identity with the fixture's email is
    refused before anything is written.
  */
  lemma EmailDuplicateDenied(ord1: Order, ord2: Order)
    requires LoginOrderFits(EmptyStore(), Fixture(), ord1)
    requires LoginOrderFits(AfterFirstLogin(ord1), SecondIdentity(), ord2)
    ensures Dispatch(DefaultConfig(), AfterFirstLogin(ord1), SecondIdentity(), ord2)
         == LoginResult(AfterFirstLogin(ord1), [], Denied(EmailInUse(FixtureUser().email)))
  {
    FirstLoginState(ord1);
    SecondIdentityFrom(AfterFirstLogin(ord1), ord2);
  }

  /** No prefix of `s` matches `.*needle.*` when `needle` holds a character `s` lacks. */
  lemma NoMatchWithout(needle: string, ch: char, s: string)
    requires ch in needle && ch !in s
    ensures !PrefixMatch(Around(needle), s)
  {
    var p :| 0 <= p < |needle| && needle[p] == ch;
    forall k, i | 0 <= k <= |s| && 0 <= i <= k
      ensures !OccursAt(s[..k], needle, i)
    {
      if i + |needle| <= k {
        assert s[..k][i..i + |needle|][p] == s[i + p];
      }
    }
  }

  /** A pattern that no fixture entitlement matches: `.*not_available.*`. */
  function Unavailable(): Language {
    Around("not_available")
  }

  /** `.*:group:some_VO#.*`, which the first entitlement matches. */
  const SomeVoNeedle: string := Marker + "some_VO" + "#"

  /** A one-pattern allow-list refuses claims none of whose entitlements the pattern matches. */
  lemma SinglePatternRefuses(p: Language, c: Claims)
    requires forall j :: 0 <= j < |c.entitlements| ==> !PrefixMatch(p, c.entitlements[j])
    ensures !AllowListPasses(Config([p], false), c)
  {}

  lemma FixtureEntitlements()
    ensures Fixture().entitlements == [GroupVo, SubgroupVo, Capability]
  {}

  lemma NoneOfThreeMatches(p: Language, a: string, b: string, d: string)
    requires !PrefixMatch(p, a) && !PrefixMatch(p, b) && !PrefixMatch(p, d)
    ensures forall j :: 0 <= j < |[a, b, d]| ==> !PrefixMatch(p, [a, b, d][j])
  {}

  lemma NeedleHasV()
    ensures 'v' in "not_available"
  {
    assert "not_available"[5] == 'v';
  }

  lemma EntitlementsLackV()
    ensures 'v' !in GroupVo && 'v' !in SubgroupVo && 'v' !in Capability
  {}

  /** No fixture entitlement contains a `v`, which `not_available` does. */
  lemma UnavailableMatchesNoEntitlement()
    ensures !PrefixMatch(Unavailable(), GroupVo)
    ensures !PrefixMatch(Unavailable(), SubgroupVo)
    ensures !PrefixMatch(Unavailable(), Capability)
  {
    NeedleHasV();
    EntitlementsLackV();
    NoMatchWithout("not_available", 'v', GroupVo);
    NoMatchWithout("not_available", 'v', SubgroupVo);
    NoMatchWithout("not_available", 'v', Capability);
  }

  lemma UnavailableRefusesFixture()
    ensures !AllowListPasses(Config([Unavailable()], false), Fixture())
  {
    UnavailableMatchesNoEntitlement();
    FixtureEntitlements();
    NoneOfThreeMatches(Unavailable(), GroupVo, SubgroupVo, Capability);
    SinglePatternRefuses(Unavailable(), Fixture());
  }

  /** `.*needle.*` matches any newline-free text with the needle in it, at its start. */
  lemma AroundMatches(a: string, needle: string, b: string)
    requires '\n' !in a && '\n' !in needle
    ensures PrefixMatch(Around(needle), a + needle + b)
  {
    var s := a + needle + b;
    var t := a + needle;
    assert s[..|t|] == t;
    assert t[|a|..|a| + |needle|] == needle;
    assert OccursAt(t, needle, |a|);
  }

  lemma NoNewlineBeforeRealm()
    ensures '\n' !in Namespace && '\n' !in SomeVoNeedle
  {}

  lemma SomeVoAdmitsFixture()
    ensures PrefixMatch(Around(SomeVoNeedle), GroupVo)
  {
    NoNewlineBeforeRealm();
    AroundMatches(Namespace, SomeVoNeedle, Realm);
    assert GroupVo == Namespace + SomeVoNeedle + Realm;
  }

  lemma UnavailableDeniesFrom(s: Store)
    requires HoldsFixtureUser(s)
    ensures LoginOrderFits(s, Fixture(), Order([], []))
    ensures Dispatch(Config([Unavailable()], false), s, Fixture(), Order([], []))
         == LoginResult(s, [], Denied(VosNotAllowed))
  {
    FixtureUserAgrees(s);
    AgreeingUserGetIsQuiet(s, Fixture());
    UnavailableRefusesFixture();
  }

  /** With `.*:group:some_VO#.*` added the allow-list passes the fixture. */
  lemma BothPatternsAdmitFixture()
    ensures AllowListPasses(Config([Unavailable(), Around(SomeVoNeedle)], false), Fixture())
  {
    SomeVoAdmitsFixture();
    FixtureEntitlements();
    var both := Config([Unavailable(), Around(SomeVoNeedle)], false);
    assert PrefixMatch(both.allowedVos[1], Fixture().entitlements[0]);
  }

  lemma SomeVoAdmitsFrom(s: Store)
    requires HoldsFixtureUser(s)
    ensures LoginOrderFits(s, Fixture(), Order([], []))
    ensures Dispatch(Config([Unavailable(), Around(SomeVoNeedle)], false), s, Fixture(), Order([], []))
         == LoginResult(s, [UserLoggedIn(FixtureId)], LoggedIn(FixtureId))
  {
    FixtureUserAgrees(s);
    BothPatternsAdmitFixture();
    AgreeingUserLogsInQuietly(Config([Unavailable(), Around(SomeVoNeedle)], false), s, Fixture());
  }

  /**
    `test_allowed_vos`: with only `.*not_available.*` allowed the returning
    fixture user is refused and nothing changes; once `.*:group:some_VO#.*`
    is added the login goes through quietly.
  */
  lemma AllowedVosScenario(ord: Order)
    requires LoginOrderFits(EmptyStore(), Fixture(), ord)
    ensures LoginOrderFits(AfterFirstLogin(ord), Fixture(), Order([], []))
    ensures Dispatch(Config([Unavailable()], false), AfterFirstLogin(ord), Fixture(), Order([], []))
         == LoginResult(AfterFirstLogin(ord), [], Denied(VosNotAllowed))
    ensures Dispatch(Config([Unavailable(), Around(SomeVoNeedle)], false), AfterFirstLogin(ord), Fixture(), Order([], []))
         == LoginResult(AfterFirstLogin(ord), [UserLoggedIn(FixtureId)], LoggedIn(FixtureId))
  {
    FirstLoginState(ord);
    UnavailableDeniesFrom(AfterFirstLogin(ord));
    SomeVoAdmitsFrom(AfterFirstLogin(ord));
  }
}

=== FILE: signals.dfy ===
/**
  The signals of django_helmholtz_aai/signals.py, as the ordered trace of
  emissions a login produces, and the shape of a reconciliation step.
*/
module Signals {
  import opened Wrappers
  import opened Models

  /** One signal emission with the user key or the VO entitlement it is about. */
  datatype Event =
    | UserCreated(uid: string)
    | UserUpdated(uid: string)
    | UserLoggedIn(uid: string)
    | VoCreated(entitlement: string)
    | VoEntered(entitlement: string)
    | VoLeft(entitlement: string)

  /** The signal objects themselves, as the tests record them by name. */
  datatype Signal =
    | AaiUserCreated | AaiUserUpdated | AaiUserLoggedIn
    | AaiVoCreated | AaiVoEntered | AaiVoLeft

  function SignalOf(e: Event): Signal {
    match e
    case UserCreated(_) => AaiUserCreated
    case UserUpdated(_) => AaiUserUpdated
    case UserLoggedIn(_) => AaiUserLoggedIn
    case VoCreated(_) => AaiVoCreated
    case VoEntered(_) => AaiVoEntered
    case VoLeft(_) => AaiVoLeft
  }

  /** The names of the signals sent, in order. */
  function SignalNames(evs: seq<Event>): (r: seq<Signal>)
    ensures |r| == |evs|
    ensures forall i :: 0 <= i < |evs| ==> r[i] == SignalOf(evs[i])
  {
    if |evs| == 0 then [] else [SignalOf(evs[0])] + SignalNames(evs[1..])
  }

  /**
    The outcome of a run of writes: the store after the writes that
    happened, the signals sent, and the database error that stopped the
    run, if any. Earlier writes are not rolled back.
  */
  datatype Effect = Effect(store: Store, events: seq<Event>, fault: Option<StoreError>)
}

=== FILE: vo_sync.dfy ===
/**
  `synchronize_vos` of django_helmholtz_aai/views.py: bring the user's VO
  memberships in line with the group entitlements of the claims.
*/
module VoSync {
  import opened Wrappers
  import opened GroupPattern
  import opened Models
  import opened Userinfo
  import opened Signals

  /** `set(filter(group_patt.match, eduperson_entitlement))`: the VOs the claims ask for. */
  function Desired(c: Claims): set<string> {
    set e | e in c.entitlements && IsGroupEntitlement(e)
  }

  function Elements(xs: seq<string>): set<string> {
    set x | x in xs
  }

  predicate Distinct(xs: seq<string>) {
    forall i, j :: 0 <= i < j < |xs| ==> xs[i] != xs[j]
  }

  /** `xs` is one order in which a Python `for` loop may visit the set `s`. */
  predicate Enumerates(xs: seq<string>, s: set<string>) {
    Distinct(xs) && Elements(xs) == s
  }

  /**
    The order in which the runtime iterates the two set differences; Python
    does not fix it, so the model takes it as an input.
  */
  datatype Order = Order(removals: seq<string>, additions: seq<string>)

  /** The VOs a sync leaves. */
  function Leaving(s: Store, uid: string, c: Claims): set<string> {
    VosOf(s, uid) - Desired(c)
  }

  /** The VOs a sync enters. */
  function Entering(s: Store, uid: string, c: Claims): set<string> {
    Desired(c) - VosOf(s, uid)
  }

  /** `ord` is an order the runtime may choose for syncing `uid` with `c` in `s`. */
  predicate OrderFits(s: Store, uid: string, c: Claims, ord: Order) {
    Enumerates(ord.removals, Leaving(s, uid, c)) && Enumerates(ord.additions, Entering(s, uid, c))
  }

  /** Every VO in `es` that must be created has a name no group uses yet. */
  predicate NamesFree(s: Store, es: set<string>) {
    forall e :: e in es && e !in s.vos ==> !GroupNameTaken(s, e)
  }

  /** One `aai_vo_left` per removed entitlement, in loop order. */
  function LeftEvents(es: seq<string>): seq<Event> {
    seq(|es|, i requires 0 <= i < |es| => VoLeft(es[i]))
  }

  /**
    The signals of the addition loop, judged against the VOs that existed
    before it: `aai_vo_created` for a VO not there yet, then
    `aai_vo_entered`.
  */
  function AddEvents(known: set<string>, es: seq<string>): seq<Event> {
    if |es| == 0 then [] else PassEvents(known, es[0]) + AddEvents(known, es[1..])
  }

  /** The signals of one pass: `aai_vo_created` unless the VO is known, then `aai_vo_entered`. */
  function PassEvents(known: set<string>, e: string): seq<Event> {
    if e in known then [VoEntered(e)] else [VoCreated(e), VoEntered(e)]
  }

  /** VOs created by the loop itself do not change the signals of the entitlements after them. */
  lemma {:induction false} AddEventsIgnoresOthers(known: set<string>, extra: set<string>, es: seq<string>)
    requires forall e :: e in es ==> e !in extra
    ensures AddEvents(known + extra, es) == AddEvents(known, es)
    decreases |es|
  {
    if |es| > 0 {
      AddEventsIgnoresOthers(known, extra, es[1..]);
    }
  }

  /**
    The removal loop: for each entitlement look the VO up (it must exist),
    drop the membership and send `aai_vo_left`.
  */
  function RemoveVos(s: Store, uid: string, es: seq<string>): (r: Effect)
    ensures r.fault.None? <==> Elements(es) <= s.vos.Keys
    ensures r.fault.None? ==> VosOf(r.store, uid) == VosOf(s, uid) - Elements(es)
    ensures r.fault.None? ==> r.events == LeftEvents(es)
    ensures r.store.vos == s.vos
    ensures VosOf(r.store, uid) <= VosOf(s, uid)
    ensures SyncFrame(s, r.store, uid)
    ensures |es| == 0 ==> r == Effect(s, [], None)
    decreases |es|
  {
    if |es| == 0 then Effect(s, [], None)
    else if es[0] !in s.vos then Effect(s, [], Some(VoDoesNotExist(es[0])))
    else
      var s1 := s.(voMembers := s.voMembers[uid := VosOf(s, uid) - {es[0]}]);
      var rest := RemoveVos(s1, uid, es[1..]);
      assert Elements(es) == {es[0]} + Elements(es[1..]);
      SyncFrameTransitive(s, s1, rest.store, uid);
      Effect(rest.store, [VoLeft(es[0])] + rest.events, rest.fault)
  }

  /**
    Only the VO table and the user's own VO memberships may change; other
    users keep theirs and no VO disappears or is renamed.
  */
  ghost predicate SyncFrame(s: Store, s': Store, uid: string) {
    && s' == s.(vos := s'.vos, voMembers := s'.voMembers)
    && (forall e :: e in s.vos ==> e in s'.vos && s'.vos[e] == s.vos[e])
    && s'.voMembers.Keys <= s.voMembers.Keys + {uid}
    && (forall other :: other != uid ==> VosOf(s', other) == VosOf(s, other))
  }

  lemma SyncFrameTransitive(s: Store, s': Store, s'': Store, uid: string)
    requires SyncFrame(s, s', uid) && SyncFrame(s', s'', uid)
    ensures SyncFrame(s, s'', uid)
  {
  }

  /**
    One pass of the addition loop: get the VO, or create it named after the
    entitlement and send `aai_vo_created`; then add the membership and send
    `aai_vo_entered`. Creating a VO whose name another group already has
    is refused by the unique group name column.
  */
  function EnterVo(s: Store, uid: string, e: string): (r: Effect)
    ensures r.fault.None? <==> e in s.vos || !GroupNameTaken(s, e)
    ensures r.fault.Some? ==> r.store == s && r.events == []
    ensures r.fault.None? ==> VosOf(r.store, uid) == VosOf(s, uid) + {e}
    ensures r.fault.None? ==> r.store.vos == if e in s.vos then s.vos else s.vos[e := e]
    ensures r.fault.None? ==>
      r.events == if e in s.vos then [VoEntered(e)] else [VoCreated(e), VoEntered(e)]
  {
    if e !in s.vos && GroupNameTaken(s, e) then
      Effect(s, [], Some(GroupNameInUse(e)))
    else
      var s0 := if e in s.vos then s else s.(vos := s.vos[e := e]);
      var s1 := s0.(voMembers := s0.voMembers[uid := VosOf(s0, uid) + {e}]);
      Effect(s1, if e in s.vos then [VoEntered(e)] else [VoCreated(e), VoEntered(e)], None)
  }

  /** One pass of the addition loop changes only the VO table and the user's own VO memberships. */
  lemma EnterVoFrame(s: Store, uid: string, e: string)
    ensures SyncFrame(s, EnterVo(s, uid, e).store, uid)
  {
  }

  /** Creating the VO `e` changes no name check of any other entitlement. */
  lemma NamesFreeAfterEnter(s: Store, s1: Store, e: string, rest: set<string>)
    requires e !in rest
    requires s1.plainGroups == s.plainGroups
    requires s1.vos == s.vos || (e !in s.vos && s1.vos == s.vos[e := e])
    ensures NamesFree(s1, rest) <==> NamesFree(s, rest)
  {
    assert s1.vos.Values <= s.vos.Values + {e} by {
      forall v | v in s1.vos.Values ensures v in s.vos.Values + {e} {
        var k :| k in s1.vos && s1.vos[k] == v;
      }
    }
    assert s.vos.Values <= s1.vos.Values by {
      forall v | v in s.vos.Values ensures v in s1.vos.Values {
        var k :| k in s.vos && s.vos[k] == v;
        assert s1.vos[k] == v;
      }
    }
  }

  /** A distinct sequence is its head, not repeated, followed by a distinct tail. */
  lemma DistinctSplit(es: seq<string>)
    requires Distinct(es) && |es| > 0
    ensures Distinct(es[1..])
    ensures Elements(es) == {es[0]} + Elements(es[1..])
    ensures es[0] !in Elements(es[1..])
  {
    assert es == [es[0]] + es[1..];
    forall i | 0 <= i < |es[1..]| ensures es[1..][i] != es[0] {
      assert es[1..][i] == es[i + 1];
    }
    forall i, j | 0 <= i < j < |es[1..]| ensures es[1..][i] != es[1..][j] {
      assert es[1..][i] == es[i + 1] && es[1..][j] == es[j + 1];
    }
  }

  /** The addition loop over `es`, in the runtime's order. */
  function AddVos(s: Store, uid: string, es: seq<string>): (r: Effect)
    requires Distinct(es)
    ensures r.fault.None? <==> NamesFree(s, Elements(es))
    ensures r.fault.None? ==> VosOf(r.store, uid) == VosOf(s, uid) + Elements(es)
    ensures r.fault.None? ==> r.events == AddEvents(s.vos.Keys, es)
    ensures |es| == 0 ==> r == Effect(s, [], None)
    decreases |es|
  {
    if |es| == 0 then Effect(s, [], None)
    else
      var e := es[0];
      DistinctSplit(es);
      var first := EnterVo(s, uid, e);
      if first.fault.Some? then first
      else
        var rest := AddVos(first.store, uid, es[1..]);
        NamesFreeAfterEnter(s, first.store, e, Elements(es[1..]));
        AddEventsIgnoresOthers(s.vos.Keys, first.store.vos.Keys - s.vos.Keys, es[1..]);
        assert s.vos.Keys + (first.store.vos.Keys - s.vos.Keys) == first.store.vos.Keys;
        assert VosOf(first.store, uid) == VosOf(s, uid) + {e};
        Effect(rest.store, first.events + rest.events, rest.fault)
  }

  /**
    The addition loop changes only the VO table and the user's own VO
    memberships, and those only grow, by VOs of the loop; every VO it
    creates belongs to the loop and is named after its entitlement.
  */
  lemma {:induction false} AddVosFrame(s: Store, uid: string, es: seq<string>)
    requires Distinct(es)
    ensures SyncFrame(s, AddVos(s, uid, es).store, uid)
    ensures VosOf(s, uid) <= VosOf(AddVos(s, uid, es).store, uid) <= VosOf(s, uid) + Elements(es)
    ensures var s' := AddVos(s, uid, es).store;
      forall e :: e in s'.vos && e !in s.vos ==> e in es && s'.vos[e] == e
    decreases |es|
  {
    if |es| > 0 {
      DistinctSplit(es);
      var first := EnterVo(s, uid, es[0]);
      EnterVoFrame(s, uid, es[0]);
      if first.fault.None? {
        AddVosFrame(first.store, uid, es[1..]);
        SyncFrameTransitive(s, first.store, AddVos(first.store, uid, es[1..]).store, uid);
      }
    }
  }

  /** A successful addition loop leaves every VO of the loop in the VO table, and no other new one. */
  lemma {:induction false} AddVosTable(s: Store, uid: string, es: seq<string>)
    requires Distinct(es)
    ensures AddVos(s, uid, es).fault.None? ==>
              forall x :: x in AddVos(s, uid, es).store.vos <==> x in s.vos || x in es
    decreases |es|
  {
    if |es| > 0 {
      DistinctSplit(es);
      var first := EnterVo(s, uid, es[0]);
      if first.fault.None? {
        AddVosTable(first.store, uid, es[1..]);
        assert forall x :: x in first.store.vos <==> x in s.vos || x == es[0];
        assert forall x :: x in es <==> x == es[0] || x in es[1..];
      }
    }
  }

  /**
    `synchronize_vos`: all removals of VOs no longer claimed, then all
    additions of newly claimed VOs, each loop in the runtime's order.
  */
  function Sync(s: Store, uid: string, c: Claims, ord: Order): (r: Effect)
    requires OrderFits(s, uid, c, ord)
    ensures r.fault.None? <==> Leaving(s, uid, c) <= s.vos.Keys && NamesFree(s, Entering(s, uid, c))
    ensures r.fault.None? ==> VosOf(r.store, uid) == Desired(c)
    ensures r.fault.None? ==> r.events == LeftEvents(ord.removals) + AddEvents(s.vos.Keys, ord.additions)
    ensures SyncFrame(s, r.store, uid)
    ensures forall e :: e in r.store.vos && e !in s.vos ==> e in Desired(c) && r.store.vos[e] == e
    ensures VosOf(r.store, uid) <= VosOf(s, uid) + Desired(c)
    ensures VosOf(s, uid) == Desired(c) ==> r == Effect(s, [], None)
  {
    var rem := RemoveVos(s, uid, ord.removals);
    if rem.fault.Some? then rem
    else
      var add := AddVos(rem.store, uid, ord.additions);
      AddVosFrame(rem.store, uid, ord.additions);
      SyncFrameTransitive(s, rem.store, add.store, uid);
      assert NamesFree(rem.store, Entering(s, uid, c)) <==> NamesFree(s, Entering(s, uid, c));
      Effect(add.store, rem.events + add.events, add.fault)
  }

  /** Every `aai_vo_left` comes before every signal of the addition loop. */
  predicate LeavesFirst(evs: seq<Event>) {
    forall i, j :: 0 <= i < j < |evs| && evs[j].VoLeft? ==> evs[i].VoLeft?
  }

  /** Every `aai_vo_created` is immediately followed by `aai_vo_entered` for the same VO. */
  predicate CreatedThenEntered(evs: seq<Event>) {
    forall i :: 0 <= i < |evs| && evs[i].VoCreated? ==>
      i + 1 < |evs| && evs[i + 1] == VoEntered(evs[i].entitlement)
  }

  /** Only VO signals: the user signals belong to the login around the sync. */
  predicate OnlyVoEvents(evs: seq<Event>) {
    forall i :: 0 <= i < |evs| ==> evs[i].VoLeft? || evs[i].VoCreated? || evs[i].VoEntered?
  }

  /**
    The addition loop enters exactly the VOs of `es`, and creates exactly
    those not known before, each creation right before its entry.
  */
  lemma AddEventsShape(known: set<string>, es: seq<string>)
    ensures forall i :: 0 <= i < |AddEvents(known, es)| ==>
              AddEvents(known, es)[i].VoCreated? || AddEvents(known, es)[i].VoEntered?
    ensures CreatedThenEntered(AddEvents(known, es))
    ensures forall e :: VoEntered(e) in AddEvents(known, es) <==> e in es
    ensures forall e :: VoCreated(e) in AddEvents(known, es) <==> e in es && e !in known
    ensures forall e :: VoLeft(e) !in AddEvents(known, es)
  {
    AddEventsKinds(known, es);
    AddEventsPairs(known, es);
    AddEventsMembers(known, es);
  }

  /** The addition loop sends only `aai_vo_created` and `aai_vo_entered`. */
  lemma {:induction false} AddEventsKinds(known: set<string>, es: seq<string>)
    ensures forall i :: 0 <= i < |AddEvents(known, es)| ==>
              AddEvents(known, es)[i].VoCreated? || AddEvents(known, es)[i].VoEntered?
    decreases |es|
  {
    if |es| > 0 {
      AddEventsKinds(known, es[1..]);
      var pre: seq<Event>, tail: seq<Event> := PassEvents(known, es[0]), AddEvents(known, es[1..]);
      forall i | 0 <= i < |pre + tail| ensures (pre + tail)[i].VoCreated? || (pre + tail)[i].VoEntered? {
        if i >= |pre| {
          assert (pre + tail)[i] == tail[i - |pre|];
        }
      }
    }
  }

  /** No two `aai_vo_entered` signals of `evs` name the same VO. */
  predicate EntersOnce(evs: seq<Event>) {
    forall i, j :: 0 <= i < j < |evs| && evs[i].VoEntered? && evs[j].VoEntered? ==> evs[i] != evs[j]
  }

  /**
    When the loop visits each VO once, as a set iteration does, it sends
    `aai_vo_entered` once per VO: no two entry signals name the same VO.
  */
  lemma {:induction false} AddEventsEntersOnce(known: set<string>, es: seq<string>)
    requires Distinct(es)
    ensures EntersOnce(AddEvents(known, es))
    decreases |es|
  {
    if |es| > 0 {
      DistinctSplit(es);
      AddEventsEntersOnce(known, es[1..]);
      AddEventsMembers(known, es[1..]);
      var pre: seq<Event>, tail: seq<Event> := PassEvents(known, es[0]), AddEvents(known, es[1..]);
      forall i, j | 0 <= i < j < |pre + tail| && (pre + tail)[i].VoEntered? && (pre + tail)[j].VoEntered?
        ensures (pre + tail)[i] != (pre + tail)[j]
      {
        if i < |pre| && |pre| <= j {
          assert (pre + tail)[j] == tail[j - |pre|];
          assert (pre + tail)[j] in tail;
          assert es[0] !in es[1..] by {
            assert es[0] !in Elements(es[1..]);
          }
          assert (pre + tail)[i] == VoEntered(es[0]);
        } else if |pre| <= i {
          assert (pre + tail)[i] == tail[i - |pre|];
          assert (pre + tail)[j] == tail[j - |pre|];
        }
      }
    }
  }

  /** In the addition loop every `aai_vo_created` is directly followed by its `aai_vo_entered`. */
  lemma {:induction false} AddEventsPairs(known: set<string>, es: seq<string>)
    ensures CreatedThenEntered(AddEvents(known, es))
    decreases |es|
  {
    if |es| > 0 {
      AddEventsPairs(known, es[1..]);
      var pre: seq<Event>, tail: seq<Event> := PassEvents(known, es[0]), AddEvents(known, es[1..]);
      forall i | 0 <= i < |pre + tail| && (pre + tail)[i].VoCreated?
        ensures i + 1 < |pre + tail| && (pre + tail)[i + 1] == VoEntered((pre + tail)[i].entitlement)
      {
        if i >= |pre| {
          assert (pre + tail)[i] == tail[i - |pre|];
          assert (pre + tail)[i + 1] == tail[i + 1 - |pre|];
        }
      }
    }
  }

  /** The addition loop enters exactly the VOs of `es` and creates exactly the unknown ones. */
  lemma {:induction false} AddEventsMembers(known: set<string>, es: seq<string>)
    ensures forall e :: VoEntered(e) in AddEvents(known, es) <==> e in es
    ensures forall e :: VoCreated(e) in AddEvents(known, es) <==> e in es && e !in known
    ensures forall e :: VoLeft(e) !in AddEvents(known, es)
    decreases |es|
  {
    if |es| > 0 {
      AddEventsMembers(known, es[1..]);
      var pre: seq<Event>, tail: seq<Event> := PassEvents(known, es[0]), AddEvents(known, es[1..]);
      assert es == [es[0]] + es[1..];
      forall x
        ensures VoEntered(x) in pre + tail <==> x in es
        ensures VoCreated(x) in pre + tail <==> x in es && x !in known
        ensures VoLeft(x) !in pre + tail
      {
        assert VoEntered(x) in pre + tail <==> VoEntered(x) in pre || VoEntered(x) in tail;
        assert VoCreated(x) in pre + tail <==> VoCreated(x) in pre || VoCreated(x) in tail;
        assert VoLeft(x) in pre + tail <==> VoLeft(x) in pre || VoLeft(x) in tail;
      }
    }
  }

  /** The removal loop sends `aai_vo_left` for exactly the VOs of `es`, and nothing else. */
  lemma LeftEventsShape(es: seq<string>)
    ensures forall i :: 0 <= i < |LeftEvents(es)| ==> LeftEvents(es)[i].VoLeft?
    ensures forall e :: VoLeft(e) in LeftEvents(es) <==> e in es
  {
    var left := LeftEvents(es);
    forall e ensures VoLeft(e) in left <==> e in es {
      if VoLeft(e) in left {
        var i :| 0 <= i < |left| && left[i] == VoLeft(e);
        assert es[i] == e;
      }
      if e in es {
        var i :| 0 <= i < |es| && es[i] == e;
        assert left[i] == VoLeft(e);
      }
    }
  }

  /** The removal signals followed by the addition signals, in the shape the sync promises. */
  lemma SyncEventsShape(removals: seq<string>, known: set<string>, additions: seq<string>)
    ensures var evs := LeftEvents(removals) + AddEvents(known, additions);
      && OnlyVoEvents(evs)
      && LeavesFirst(evs)
      && CreatedThenEntered(evs)
      && (forall e :: VoLeft(e) in evs <==> e in removals)
      && (forall e :: VoEntered(e) in evs <==> e in additions)
      && (forall e :: VoCreated(e) in evs <==> e in additions && e !in known)
  {
    var left := LeftEvents(removals);
    var add := AddEvents(known, additions);
    var evs := left + add;
    LeftEventsShape(removals);
    AddEventsShape(known, additions);
    forall i, j | 0 <= i < j < |evs| && evs[j].VoLeft? ensures evs[i].VoLeft? {
    }
    forall i | 0 <= i < |evs| && evs[i].VoCreated?
      ensures i + 1 < |evs| && evs[i + 1] == VoEntered(evs[i].entitlement)
    {
      assert evs[i] == add[i - |left|];
      assert evs[i + 1] == add[i + 1 - |left|];
    }
    forall e
      ensures VoLeft(e) in evs <==> VoLeft(e) in left || VoLeft(e) in add
      ensures VoEntered(e) in evs <==> VoEntered(e) in left || VoEntered(e) in add
      ensures VoCreated(e) in evs <==> VoCreated(e) in left || VoCreated(e) in add
    {
    }
  }

  /** The removal signals name no entry, so a loop entering each VO once keeps that property after them. */
  lemma EntersOnceAfterLeaving(removals: seq<string>, known: set<string>, additions: seq<string>)
    requires Distinct(additions)
    ensures EntersOnce(LeftEvents(removals) + AddEvents(known, additions))
  {
    var left: seq<Event>, add: seq<Event> := LeftEvents(removals), AddEvents(known, additions);
    AddEventsEntersOnce(known, additions);
    forall i, j | 0 <= i < j < |left + add| && (left + add)[i].VoEntered? && (left + add)[j].VoEntered?
      ensures (left + add)[i] != (left + add)[j]
    {
      assert (left + add)[i] == add[i - |left|];
      assert (left + add)[j] == add[j - |left|];
    }
  }

  /**
    The signals of a successful sync: all `aai_vo_left` first, one per VO
    left; then one `aai_vo_entered` per VO entered, preceded directly by
    `aai_vo_created` exactly for the VOs that did not exist yet.
  */
  lemma SyncEventOrder(s: Store, uid: string, c: Claims, ord: Order)
    requires OrderFits(s, uid, c, ord)
    requires Sync(s, uid, c, ord).fault.None?
    ensures var evs := Sync(s, uid, c, ord).events;
      && OnlyVoEvents(evs)
      && LeavesFirst(evs)
      && CreatedThenEntered(evs)
      && (forall e :: VoLeft(e) in evs <==> e in Leaving(s, uid, c))
      && (forall e :: VoEntered(e) in evs <==> e in Entering(s, uid, c))
      && (forall e :: VoCreated(e) in evs <==> e in Entering(s, uid, c) && e !in s.vos)
      && EntersOnce(evs)
  {
    SyncEventsShape(ord.removals, s.vos.Keys, ord.additions);
    EntersOnceAfterLeaving(ord.removals, s.vos.Keys, ord.additions);
    assert forall e :: e in ord.removals <==> e in Elements(ord.removals);
    assert forall e :: e in ord.additions <==> e in Elements(ord.additions);
  }

  /** A sync writes only memberships of `uid`, to VOs that exist, so the schema stays intact. */
  lemma SyncPreservesValid(s: Store, uid: string, c: Claims, ord: Order)
    requires Valid(s) && uid in s.users
    requires OrderFits(s, uid, c, ord)
    ensures Valid(Sync(s, uid, c, ord).store)
  {
    var rem := RemoveVos(s, uid, ord.removals);
    RemoveVosPreservesValid(s, uid, ord.removals);
    if rem.fault.None? {
      AddVosPreservesValid(rem.store, uid, ord.additions);
    }
  }

  lemma {:induction false} RemoveVosPreservesValid(s: Store, uid: string, es: seq<string>)
    requires Valid(s) && uid in s.users
    ensures Valid(RemoveVos(s, uid, es).store)
    decreases |es|
  {
    if |es| > 0 && es[0] in s.vos {
      var s1 := s.(voMembers := s.voMembers[uid := VosOf(s, uid) - {es[0]}]);
      assert Valid(s1);
      RemoveVosPreservesValid(s1, uid, es[1..]);
    }
  }

  lemma {:induction false} AddVosPreservesValid(s: Store, uid: string, es: seq<string>)
    requires Valid(s) && uid in s.users
    requires Distinct(es)
    ensures Valid(AddVos(s, uid, es).store)
    decreases |es|
  {
    if |es| > 0 {
      var first := EnterVo(s, uid, es[0]);
      if first.fault.None? {
        EnterVoPreservesValid(s, uid, es[0]);
        AddVosPreservesValid(first.store, uid, es[1..]);
      }
    }
  }

  lemma EnterVoPreservesValid(s: Store, uid: string, e: string)
    requires Valid(s) && uid in s.users
    ensures Valid(EnterVo(s, uid, e).store)
  {
  }
}

=== FILE: wrappers.dfy ===
/** The two failure-carrying shapes the model uses. */
module Wrappers {

  /** A value that may be absent: a cached lookup that missed, an error that did not happen. */
  datatype Option<+T> = None | Some(value: T)

  /** A computation that either produced a value or raised an error. */
  datatype Result<+R, +E> = Success(value: R) | Failure(error: E)
}
